=== FILE: README.md ===
# Storefront client core in Dafny

This project models the pure logic inside a React storefront client. The
logic is lists of records, small state machines and form helpers:

- **Cart store** (`CartStore`). An ordered list of lines keyed by article id, with:
  - add-or-merge, remove, set-quantity and clear;
  - the derived total, price times quantity summed over the lines;
  - the snapshot the store keeps under the key `"cart"` in the browser's string store, and the load that falls back to an empty cart.
- **Cart page** (`CartPage`). A page-local cart seeded with two lines, with a quantity field and a delete button per line.
- **Authentication session** (`Auth`). Anonymous ⇄ authenticated through `login`/`logout`, hydrated on mount from the keys `"userId"` and `"userName"`.
- **Route guard** (`RouteGuard`). Maps a route's allowed roles, the authentication flag and the user's role to render, redirect to `/login`, or redirect to `/`.
- **Checkout** (`Checkout`). Covers:
  - the simulated payment machine (pending → processing → confirmed);
  - the five-minute countdown and its `m:ss` rendering;
  - the summary's per-line amounts;
  - the redirect back to the cart when no order data arrives.
- **Inventory admin** (`Inventory`). Covers:
  - the category check-box toggle and the search-and-category product filter;
  - the stock colour tiers and the stock total;
  - the category label;
  - the product modal's form state;
  - the request built on submit, which is refused when no category is ticked.
- **General admin** (`GestionGeneral`). Four sections (localities, provinces, discounts, payment methods) share one modal form. This module covers:
  - endpoints, id fields and empty forms;
  - province-name lookup;
  - field edits;
  - the PUT-versus-POST choice on submit.
- **Registration** (`Register`). Covers:
  - the password-confirmation check that blocks the request;
  - the body sent;
  - the 200/201 success test;
  - the error-message fallback chain.

`Common` holds `Option`, the script's string truthiness (the empty string is false) and store lookup. `Text` holds the script built-ins the pages call:
- decimal `toString`;
- `padStart`;
- `includes` as substring search;
- ASCII lower-casing;
- `join`.

The browser's string store is a `map<string, string>`. JSON parsing and serialisation are function parameters. The property that a cart survives a reload is proved under three assumptions: the parser inverts the serialiser, the serialiser never yields the empty string, and every write succeeds. A failed write is modelled separately (`CartStore.Persist`).

The script's own semantics are written out where they matter:
- `%` takes the sign of the dividend (`Checkout.TruncRem`).
- `Math.floor(s / 60)` is Dafny's Euclidean `/`, because the divisor is positive.
- An empty stored id is falsy, so it does not authenticate.
- A province code of 0 is falsy, so the empty locality form gets `''` rather than `0`.

Facts of the code that a reader might expect otherwise:
- Quantities are never checked. `updateItem` and `handleCantidadChange` store 0 and negative quantities; the page's `min={1}` is only a browser hint (`CartPage.SeedZeroQuantity`).
- `logout` does not clear the cart. It touches only the two session keys (`Auth.Logout`).
- The session carries no role. The auth context has no role field, so the guard's `userRole` is always missing. No authenticated user is ever sent home, even from an admin-only route (`RouteGuard.RoleNeverChecked`).
- No order is assembled anywhere in the modelled code. The checkout page only displays the order data it is handed.

## Model

| member | source | states |
|---|---|---|
| Common.Lookup | src/store/authContext.tsx:20-21 | `getItem` yields a value exactly when the key is stored, and then the stored value |
| CartStore.Total | src/store/cartContext.tsx:57 | a one-line cart totals that line's price times quantity (the sum itself is pinned by `CartStore.TotalAppend`) |
| CartStore.TotalNonNegative | src/store/cartContext.tsx:57 | with no negative price or quantity the total is never negative |
| CartStore.Find | src/store/cartContext.tsx:39 | `find` yields a line exactly when some line carries the article, and the line it yields is in the cart with that id |
| CartStore.FindFirst | src/store/cartContext.tsx:39 | the line `find` yields is the first one carrying the article: no earlier line has that id |
| CartStore.FindUnique | src/store/cartContext.tsx:39 | with unique ids, looking up the id of the line at any position yields exactly that line |
| CartStore.MergeQuantity | src/store/cartContext.tsx:41 | same number of lines; lines of the article gain the added quantity and keep their stored name, price and id; other lines are untouched |
| CartStore.MergeAbsent | src/store/cartContext.tsx:41 | merging into a cart that lacks the article changes nothing |
| CartStore.AddItem | src/store/cartContext.tsx:37-44 | a present article keeps the line count, sums quantities and keeps name and price; an absent one is appended last with earlier lines unchanged; the article is present afterwards; unique ids stay unique |
| CartStore.AddTwice | src/store/cartContext.tsx:38-44 | two adds of a new article give one extra last line carrying the first add's name and price and the sum of both quantities; ids stay unique |
| CartStore.FindAfterAdd | src/store/cartContext.tsx:39-43 | after an add, the article's line is the old line with the summed quantity (or the added line if it was new), and every other article's line is unchanged |
| CartStore.WithoutMembers | src/store/cartContext.tsx:48 | filtering keeps exactly the lines of other articles, and is the identity when the article is absent |
| CartStore.WithoutUnique | src/store/cartContext.tsx:48 | filtering keeps ids unique |
| CartStore.WithoutAppend | src/store/cartContext.tsx:48 | filtering a cart split anywhere is filtering each part, so survivors keep their order |
| CartStore.WithoutCounts | src/store/cartContext.tsx:48 | each line of another article keeps its multiplicity; lines of the article have none |
| CartStore.RemoveItem | src/store/cartContext.tsx:47-49 | the article is gone; a line survives iff it belongs to another article, with its multiplicity; an absent id leaves the cart unchanged; unique ids stay unique |
| CartStore.RemoveItemSplits | src/store/cartContext.tsx:47-49 | for any cart, duplicates included, removing from a cart split anywhere is removing from each part: survivors keep their order |
| CartStore.RemoveItemSingle | src/store/cartContext.tsx:48 | a single line survives exactly when it belongs to another article |
| CartStore.RemoveDeletesOneLine | src/store/cartContext.tsx:47-49 | with unique ids, removing a present article deletes exactly its one line and keeps the others in order |
| CartStore.WithoutDeletesOneLine | src/store/cartContext.tsx:48 | with unique ids, the filter equals the cart with the article's single position cut out |
| CartStore.UpdateItem | src/store/cartContext.tsx:51-53 | same lines in the same order; lines of the article take the new quantity unchecked with id, name and price kept; other lines are untouched; an absent id is a no-op |
| CartStore.UpdateAbsent | src/store/cartContext.tsx:52 | updating an article the cart lacks changes nothing |
| CartStore.Clear | src/store/cartContext.tsx:55 | the cleared cart has no lines |
| CartStore.TotalAppend | src/store/cartContext.tsx:57 | the total of two carts joined is the sum of their totals |
| CartStore.TotalMerge | src/store/cartContext.tsx:37-57 | merging an added quantity moves the total by the stored price times that quantity |
| CartStore.TotalWithout | src/store/cartContext.tsx:47-57 | removing a present article lowers the total by that line's price times quantity |
| CartStore.TotalUpdate | src/store/cartContext.tsx:51-57 | setting a quantity moves the total by the stored price times the change in quantity |
| CartStore.AddStep | src/store/cartContext.tsx:37-57 | `addItem` keeps ids unique and moves the total by the added amount at the stored price |
| CartStore.RemoveStep | src/store/cartContext.tsx:47-57 | `removeItem` keeps ids unique and lowers the total by the removed line's amount |
| CartStore.UpdateStep | src/store/cartContext.tsx:51-57 | `updateItem` keeps ids unique and moves the total by price times the change in quantity |
| CartStore.ApplyStep | src/store/cartContext.tsx:37-57 | every operation keeps ids unique and moves the total by exactly the change of the one line it touches (minus the whole total for clear) |
| CartStore.TotalNeverDrifts | src/store/cartContext.tsx:37-57 | after any sequence of operations the ids are unique and the summed total equals a running total kept incrementally from per-operation changes |
| CartStore.Load | src/store/cartContext.tsx:22-29 | the initial cart is the parsed snapshot, or empty when the key is missing, holds the empty string, or fails to parse |
| CartStore.Save | src/store/cartContext.tsx:31-35 | a successful write puts the snapshot under `"cart"` and keeps every other key |
| CartStore.Persist | src/store/cartContext.tsx:31-35 | a write either stores the new snapshot or, when `setItem` fails and the error is swallowed, leaves the store as it was; other keys are kept either way, and a write adds no key but `"cart"` |
| CartStore.FailedWriteReloadsStale | src/store/cartContext.tsx:22-35 | after a failed write a reload brings back the lines from before the operation; after a successful one, the current lines |
| CartStore.Mount | src/store/cartContext.tsx:22-35 | on mount the items are the loaded cart and the effect writes them back under `"cart"`, keeping other keys and adding none but `"cart"` |
| CartStore.ReloadRestoresFrom | src/store/cartContext.tsx:31-35 | once the stored snapshot matches the lines, it keeps matching and reloads to them through any operations |
| CartStore.ReloadRestores | src/store/cartContext.tsx:22-35 | from any initial store, after mounting and any operations, reloading yields exactly the lines in memory |
| CartStore.ClearThenReload | src/store/cartContext.tsx:22-57 | after clear, reloading gives the empty cart and the total is 0 |
| CartPage.ChangeQuantity | src/pages/Cart.tsx:17-21 | the matching lines take the typed quantity unclamped; every other line and field is unchanged |
| CartPage.Delete | src/pages/Cart.tsx:23-25 | a line survives iff it belongs to another id, with its multiplicity; an absent id is a no-op; with unique ids exactly one line is cut and the order is kept |
| CartPage.DeleteKeepsOrder | src/pages/Cart.tsx:23-25 | for any cart, duplicates included, deleting from a cart split anywhere is deleting from each part, and a single line survives exactly when it has another id |
| CartPage.SeedTotal | src/pages/Cart.tsx:12-27 | the seeded cart totals 1000·2 + 500·1 = 2500, and its ids are unique |
| CartPage.TotalFollowsEdits | src/pages/Cart.tsx:17-27 | a quantity change moves the page total by price times the change; a deletion lowers it by the line's amount |
| CartPage.SeedZeroQuantity | src/pages/Cart.tsx:12-27 | a quantity of 0 is stored as given despite the field's minimum of 1, leaving a total of 500 |
| Auth.Hydrate | src/store/authContext.tsx:19-28 | a non-empty stored id authenticates with that id and the stored name (possibly missing); otherwise the session is unchanged; the store is never written; consistency is kept |
| Auth.Login | src/store/authContext.tsx:30-38 | authenticated with the given id; the name is kept only when non-empty; the id is always stored; the name is stored only when non-empty, otherwise the old stored name survives; other keys are untouched |
| Auth.Logout | src/store/authContext.tsx:40-46 | the session returns to the anonymous initial state and both keys leave the store, with other keys untouched |
| Auth.LogoutIdempotent | src/store/authContext.tsx:40-46 | logging out twice equals logging out once |
| Auth.ReloadAfterLogin | src/store/authContext.tsx:19-38 | a reload after login restores the id, and restores the given name or, for a nameless login, the previously stored one; an empty id is lost on reload |
| Auth.ReloadAfterLogout | src/store/authContext.tsx:19-46 | a reload after logout stays anonymous |
| Auth.AlwaysConsistent | src/store/authContext.tsx:14-46 | through any sequence of hydrations, logins and logouts, the session is authenticated exactly when it holds an id |
| RouteGuard.Decide | src/components/ProtectedRoute.tsx:9-28 | exactly one decision: render iff `public` is allowed, or the user is authenticated and the list is empty, the role is missing, or the role is listed; to login iff not public and unauthenticated; home otherwise |
| RouteGuard.RoleNeverChecked | src/components/ProtectedRoute.tsx:10-27 | with the role missing, no route redirects home and any authenticated user, even on an admin-only route, is rendered the page |
| RouteGuard.Decision.Target | src/components/ProtectedRoute.tsx:19-24 | a redirect goes to "/login" exactly for the login decision and to "/" exactly for the home decision |
| RouteGuard.RedirectPaths | src/components/ProtectedRoute.tsx:13-25 | an unauthenticated visitor of a non-public route is sent to "/login"; an authenticated user with an unlisted role is sent to "/" |
| RouteGuard.MoreRolesAdmitMore | src/components/ProtectedRoute.tsx:13-25 | adding a role to a non-empty list never revokes access |
| Checkout.Step | src/pages/Checkout.tsx:33-46 | the button moves pending to processing and settling moves processing to confirmed, and the state changes in no other way; a tick while pending and positive takes one second off, and the countdown changes in no other way and never goes below zero |
| Checkout.PaymentCompletes | src/pages/Checkout.tsx:22-46 | from the opening page, the button and the settling delay reach confirmed with the countdown at 300 |
| Checkout.TicksCountDown | src/pages/Checkout.tsx:33-38 | while pending, n ticks take exactly n seconds off a countdown of at least n |
| Checkout.CountdownExpires | src/pages/Checkout.tsx:23-38 | left alone, the opening countdown reaches 0 after 300 ticks and stays there |
| Checkout.RunAppend | src/pages/Checkout.tsx:33-46 | running two event sequences one after the other is running their concatenation |
| Checkout.RunMonotone | src/pages/Checkout.tsx:22-46 | over any run the payment state never moves backward and the countdown never rises and never goes negative |
| Checkout.CountdownBounded | src/pages/Checkout.tsx:23-38 | from the opening page the countdown stays within 0..300 |
| Checkout.ConfirmedIsFinal | src/pages/Checkout.tsx:41-46 | once confirmed, no event changes the page |
| Checkout.FormatTime | src/pages/Checkout.tsx:48-52 | for non-negative seconds the text is the minutes without leading zeros, a colon and exactly two digits below 60, reading back as minutes·60 + seconds |
| Checkout.SecondsReadBack | src/pages/Checkout.tsx:49-51 | floor minutes and remainder seconds, rendered and padded, read back as the original seconds |
| Checkout.FormatTimeReadsBack | src/pages/Checkout.tsx:51 | any minutes and seconds below 60 render to a text that reads back as their sum in seconds |
| Checkout.PaddedSeconds | src/pages/Checkout.tsx:51 | seconds below 60 padded to two places are exactly two digits worth the seconds |
| Checkout.WholeMinutes | src/pages/Checkout.tsx:48-52 | a whole number of minutes renders as the minutes followed by ":00", so the opening 300 seconds read "5:00" |
| Checkout.LineAmounts | src/pages/Checkout.tsx:108-113 | one amount per summary line, in order, each price times quantity |
| Checkout.Enter | src/pages/Checkout.tsx:26-30 | the page goes back to the cart exactly when no order data arrived, and otherwise shows that order |
| Text.NatToString | src/pages/Checkout.tsx:51 | a natural number renders as at least one decimal digit with no leading zero |
| Text.NatToStringRoundTrip | src/pages/Checkout.tsx:51 | reading a rendered number back yields the number |
| Text.IntToString | src/pages/Inventory.tsx:89-90 | non-negative integers render as their digits; negative ones as '-' and the digits of the magnitude |
| Text.PadStart | src/pages/Checkout.tsx:51 | the text ends with the original, is at least the requested width, and is filled in front with the pad character only |
| Text.LeadingZerosValue | src/pages/Checkout.tsx:51 | zeros in front of a digit string leave its value unchanged |
| Text.ContainsSpec | src/pages/Inventory.tsx:211 | substring search succeeds exactly when the needle occurs at some position |
| Text.Join | src/pages/Inventory.tsx:219 | no parts join to the empty text; otherwise the text starts with the first part and ends with the last |
| Text.JoinAgrees | src/pages/Inventory.tsx:219 | `join` equals the left-to-right accumulation that appends the separator and each next part |
| Text.JoinFromSplits | src/pages/Inventory.tsx:219 | accumulating onto some text gives that text, the separator and the join of the rest |
| Text.Lower | src/pages/Inventory.tsx:211 | lower-casing keeps length and maps each character through the ASCII case rule |
| Inventory.Drop | src/pages/Inventory.tsx:205 | exactly the values other than the category survive; an absent category leaves the list unchanged |
| Inventory.DropKeepsDistinct | src/pages/Inventory.tsx:205 | filtering a duplicate-free list keeps it duplicate-free |
| Inventory.DropAppend | src/pages/Inventory.tsx:205 | dropping from a list split anywhere is dropping from each part, so the kept ids stay in order |
| Inventory.DropSingle | src/pages/Inventory.tsx:205 | a single id is kept exactly when it differs from the dropped one |
| Inventory.DropCounts | src/pages/Inventory.tsx:205 | every other id keeps its multiplicity and the dropped one has none |
| Inventory.Toggle | src/pages/Inventory.tsx:201-208 | membership of the category flips and no other id changes membership; an unticked category is appended last with the rest unchanged; unticking keeps every other id's multiplicity; no duplicates arise |
| Inventory.ToggleOffKeepsOrder | src/pages/Inventory.tsx:204-205 | unticking from a list split anywhere drops the category from each part, so the other ids keep their order |
| Inventory.ToggleOffExample | src/pages/Inventory.tsx:204-205 | unticking 2 from [1, 2, 3] leaves [1, 3] |
| Inventory.ToggleTwiceAbsent | src/pages/Inventory.tsx:201-208 | ticking and unticking an unselected category restores the list exactly |
| Inventory.DropAppended | src/pages/Inventory.tsx:205-206 | removing a category just appended to a list without it gives back the list |
| Inventory.ToggleTwicePresent | src/pages/Inventory.tsx:201-208 | unticking and reticking a selected category keeps the same set but moves it to the end |
| Inventory.ToggleTwiceReorders | src/pages/Inventory.tsx:201-208 | with categories [1, 2], toggling 1 twice gives [2, 1], so toggling twice is not the identity in general |
| Inventory.FilterProducts | src/pages/Inventory.tsx:210-215 | a product is shown iff it is listed and matches both the lower-cased search and the category filter; when every product matches, the list is unchanged |
| Inventory.EmptySearchShowsAll | src/pages/Inventory.tsx:210-215 | an empty search with the "all" filter shows every product in order |
| Inventory.FilterIsSublist | src/pages/Inventory.tsx:210-215 | each shown product appears exactly as often as in the listing, and no other product appears |
| Inventory.FilterCount | src/pages/Inventory.tsx:210-215 | one product is shown as often as it is listed when it matches the search and category, and otherwise never |
| Inventory.FilterAppend | src/pages/Inventory.tsx:210-215 | filtering a listing split anywhere is filtering each part, so the shown products keep listing order |
| Inventory.FilterSingle | src/pages/Inventory.tsx:210-215 | a single product is kept exactly when it matches both the search and the category filter |
| Inventory.StockTier | src/pages/Inventory.tsx:377-383 | red iff stock < 10, yellow iff 10 ≤ stock < 30, green iff stock ≥ 30 |
| Inventory.TierMonotone | src/pages/Inventory.tsx:377-383 | more stock never shows a worse colour |
| Inventory.StockTotal | src/pages/Inventory.tsx:288 | the sum of every product's stock: a single product totals its own stock (additivity is `Inventory.StockTotalAppend`), and the total is non-negative when every stock is |
| Inventory.StockTotalAppend | src/pages/Inventory.tsx:288 | the stock total of two lists joined is the sum of their totals |
| Inventory.FilteredStockBounded | src/pages/Inventory.tsx:288 | with non-negative stock, the filtered products never hold more stock than the total |
| Inventory.CategoryNames | src/pages/Inventory.tsx:219 | one name per category link, in order |
| Inventory.ProductCategories | src/pages/Inventory.tsx:217-220 | "Sin categoría" when links are missing or empty; one link's name alone; otherwise the first name, ", " and the rest joined by ", " |
| Inventory.CategoryIds | src/pages/Inventory.tsx:91 | the linked category ids in order, or none when the links are missing |
| Inventory.OpenModal | src/pages/Inventory.tsx:83-104 | the modal shows; editing a product prefills its name, description, price and stock text and ticks its category ids; creating starts from the all-empty form |
| Inventory.CloseModal | src/pages/Inventory.tsx:106-116 | hidden, not editing, and the form is the same all-empty form that creating starts from |
| Inventory.SetField | src/pages/Inventory.tsx:193-199 | only the named text field takes the typed value; the other fields and the ticked categories are unchanged |
| Inventory.EditUncategorisedNeedsTick | src/pages/Inventory.tsx:83-161 | editing a product with no category links is refused, and ticking one category turns it into an update of that product with just that category |
| Inventory.CreateNeedsTick | src/pages/Inventory.tsx:93-124 | a new product from the empty form is refused |
| Inventory.UneditedProductPutBack | src/pages/Inventory.tsx:83-145 | saving an untouched edit form sends the product back unchanged, given parsers that read back the rendered numbers |
| Inventory.Submit | src/pages/Inventory.tsx:118-161 | refused with its message iff no category is ticked; otherwise PUT to "/articulos/" and the id when editing, POST to "/articulos" when creating, with the form's fields, parsed price and stock, and categories as body |
| GestionGeneral.Endpoint | src/pages/GestionGeneral.tsx:208-216 | each section's endpoint is "/" followed by the section's name |
| GestionGeneral.EndpointInjective | src/pages/GestionGeneral.tsx:208-216 | different sections never share an endpoint |
| GestionGeneral.ItemId | src/pages/GestionGeneral.tsx:218-227 | no id without an item; otherwise the section's key field of the item |
| GestionGeneral.DefaultProvincia | src/pages/GestionGeneral.tsx:120 | the first province's code, or the empty text when there is no province or its code is the falsy 0 |
| GestionGeneral.EmptyForm | src/pages/GestionGeneral.tsx:117-130 | the form has exactly the section's fields, all blank except a new locality's province, which defaults to the first province |
| GestionGeneral.OpenModal | src/pages/GestionGeneral.tsx:106-115 | the modal shows and edits the given item; editing copies the item into the form, creating uses the empty form |
| GestionGeneral.CloseModal | src/pages/GestionGeneral.tsx:132-136 | hidden, nothing edited, empty form |
| GestionGeneral.InputChange | src/pages/GestionGeneral.tsx:229-232 | the named field takes the typed text, no field is lost, and every other field is unchanged |
| GestionGeneral.FindProvincia | src/pages/GestionGeneral.tsx:245 | no result iff no province has the code; otherwise the first province with it |
| GestionGeneral.IdText | src/pages/GestionGeneral.tsx:157 | the id as the request path prints it: a missing id as "undefined", a non-negative number as digits reading back as it, a text as itself |
| GestionGeneral.ProvinciaNombre | src/pages/GestionGeneral.tsx:244-246 | the first matching province's description, or "N/A" when there is no match or the description is empty; never empty |
| GestionGeneral.Body | src/pages/GestionGeneral.tsx:146-153 | the form is sent as is, except a province's shipping cost through the decimal parser and a locality's province code through the integer parser |
| GestionGeneral.Submit | src/pages/GestionGeneral.tsx:138-173 | PUT iff an item is being edited, to the endpoint, "/" and the item's id; otherwise POST to the endpoint; body as above |
| GestionGeneral.EditProvinciaPath | src/pages/GestionGeneral.tsx:155-161 | editing a province with code 7 updates "/provincias/7" |
| GestionGeneral.SubmitEdited | src/pages/GestionGeneral.tsx:106-173 | in every section, saving an opened item is a PUT to that item's own path carrying the item's record with its numeric field re-parsed |
| GestionGeneral.SubmitCreated | src/pages/GestionGeneral.tsx:106-173 | in every section, saving a new item POSTs exactly the section's fields: a blank form whose province default or shipping cost goes through the parser |
| GestionGeneral.EditWithoutKeyPath | src/pages/GestionGeneral.tsx:144-157 | a record lacking the section's key field is updated at the endpoint followed by "/undefined" |
| Register.ErrorMessage | src/pages/Register.tsx:48 | the backend error when non-empty, else the exception message when non-empty, else "Error al registrar"; never empty |
| Register.Submit | src/pages/Register.tsx:21-52 | a mismatched confirmation shows its message, sends nothing and schedules nothing; otherwise the body is name, email and password; only 200 or 201 shows the toast and schedules the redirect; a failure shows the chosen message; once a request was sent, loading ends cleared |
| Register.RetryAfterMismatch | src/pages/Register.tsx:21-45 | after a mismatch, a corrected submit that gets a 201 clears the error, sends the body and schedules the redirect |
| Register.ToastExpired | src/pages/Register.tsx:41-42 | when the timer fires the toast disappears and nothing else in the view changes |

## Left out

- Network I/O (`fetch`, the axios client, the loading of products, categories and admin records, and deletes of products and admin records) is not modelled. Responses are abstract inputs: `Register.Response`, and the parse functions passed to the submit models.
- The base URL prefixed to every request path is left out. Paths are modelled from the endpoint onward.
- Real `localStorage` and `JSON.parse`/`JSON.stringify` are not modelled. The store is a map, and parse and serialise are parameters. A `JSON.parse` exception is the parser returning `None`.
- Floating-point prices, shipping costs, `parseFloat` and `parseInt` (including `NaN`) are not modelled. Prices and stock are integers, and the parsers are parameters.
- Unicode `toLowerCase` is not modelled. `Text.Lower` lower-cases ASCII letters only.
- `toLocaleString`, `toFixed`, dates and the QR code are display-only formatting and are not modelled.
- React rendering, hook scheduling and `setTimeout` timing are not modelled. The countdown and payment delay are discrete `Checkout.Event`s, and the registration redirect is the `redirectScheduled` flag.
- Register.ToastExpired: models only the toast being cleared when the 1200 ms timer fires. The `navigate('/login')` in the same callback is routing and is not modelled.
- Loading flags and `alert`/`confirm` dialogs are not modelled, except the loading flag of registration.
- The login page, order and sales history pages, home, product list and detail pages, navbar, product card and router setup are not part of this model. They hold network calls, markup or routing tables only.
- Order-payload assembly, a role stored in the session and logout clearing the cart do not exist in the code and are not modelled.
- Checkout.FormatTime: its contract speaks only of non-negative seconds. For negative input the body follows the script (floor minutes, sign-of-dividend remainder), but nothing is proved about that text. The countdown never goes negative (`Checkout.CountdownBounded`).
- CartStore.ReloadRestores: proved only for a serialiser that the parser inverts and that never yields the empty string, and only when every write succeeds. `JSON.stringify` of an array guarantees the first two, but that is not itself modelled. A failed `setItem` is swallowed and leaves the previous snapshot; that case is `CartStore.Persist` with `CartStore.FailedWriteReloadsStale`.
- CartStore.ReloadRestoresFrom: carries the same three assumptions as `CartStore.ReloadRestores`: a round-tripping serialiser, no empty snapshot, and successful writes.
- CartStore.Save: models a successful write only; the swallowed failure is `CartStore.Persist`.
- CartStore.Load: a `getItem` that throws is not modelled separately. The code catches it and returns the empty cart, which is also what a missing key gives.
- CartStore.Find: its own contract does not say which line is returned when several carry the article. That it is the first is `CartStore.FindFirst`.
- CartStore.RemoveItem: its own contract gives the surviving lines and their multiplicities. The order of the survivors for carts with repeated ids is stated by `CartStore.RemoveItemSplits` and `CartStore.RemoveItemSingle`.
- CartPage.Delete: as for `RemoveItem`, the order of survivors for any cart is stated by `CartPage.DeleteKeepsOrder` rather than by its own contract.
- Inventory.Drop: its own contract gives membership. Order and multiplicity are `Inventory.DropAppend`, `Inventory.DropSingle` and `Inventory.DropCounts`.
- Inventory.Toggle: the order of the ids kept when unticking is `Inventory.ToggleOffKeepsOrder` rather than its own contract.
- Inventory.FilterProducts: its own contract gives membership. Listing order and multiplicity are `Inventory.FilterAppend`, `Inventory.FilterSingle` and `Inventory.FilterIsSublist`.
- GestionGeneral.Body: a record holds only flat number and text fields. A locality from the API may also carry a nested `provincia` object. `openModal` copies that object into the form, and `JSON.stringify` sends it unchanged in the PUT body. Nested fields cannot be represented, so `GestionGeneral.Body`, `GestionGeneral.OpenModal` and `GestionGeneral.SubmitEdited` speak of flat records only.
- RouteGuard.Decide: takes the user's role as an `Option`, because the auth context never supplies one. Every real call passes `None` (`RouteGuard.RoleNeverChecked`).

=== FILE: auth.dfy ===
/** The authentication session: three in-memory fields mirrored by two keys,
    "userId" and "userName", in the browser's string store. */
module Auth {
  import opened Common

  datatype Session = Session(isAuthenticated: bool, userId: Option<string>, userName: Option<string>)

  /** The provider's state: the in-memory session and the string store. */
  datatype AuthState = AuthState(session: Session, store: map<string, string>)

  const UserIdKey := "userId"
  const UserNameKey := "userName"

  /** Before anything is read: anonymous, no id, no name. */
  const Anonymous := Session(false, None, None)

  /** The invariant the provider keeps: authenticated exactly when an id is held. */
  predicate Consistent(s: Session) {
    s.isAuthenticated <==> s.userId.Some?
  }

  /** Mount-time hydration: a non-empty stored id authenticates, taking the
      stored name when there is one; otherwise the session is left as it was. */
  function Hydrate(a: AuthState): (r: AuthState)
    ensures r.store == a.store
    ensures Truthy(Lookup(a.store, UserIdKey)) ==>
      r.session.isAuthenticated && r.session.userId == Some(a.store[UserIdKey]) &&
      r.session.userName == Lookup(a.store, UserNameKey)
    ensures !Truthy(Lookup(a.store, UserIdKey)) ==> r.session == a.session
    ensures Consistent(a.session) ==> Consistent(r.session)
  {
    var storedId := Lookup(a.store, UserIdKey);
    if Truthy(storedId) then a.(session := Session(true, storedId, Lookup(a.store, UserNameKey)))
    else a
  }

  /** `login(userId, userName?)`: always stores the id, stores the name only
      when one is given and non-empty, and authenticates in memory. */
  function Login(a: AuthState, id: string, name: Option<string>): (r: AuthState)
    ensures r.session.isAuthenticated && r.session.userId == Some(id)
    ensures r.session.userName == (if Truthy(name) then name else None)
    ensures UserIdKey in r.store && r.store[UserIdKey] == id
    ensures Truthy(name) ==> UserNameKey in r.store && r.store[UserNameKey] == name.value
    ensures !Truthy(name) ==> Lookup(r.store, UserNameKey) == Lookup(a.store, UserNameKey)
    ensures forall k :: k != UserIdKey && k != UserNameKey ==> Lookup(r.store, k) == Lookup(a.store, k)
    ensures Consistent(r.session)
  {
    var store := a.store[UserIdKey := id];
    var store' := if Truthy(name) then store[UserNameKey := name.value] else store;
    AuthState(Session(true, Some(id), if Truthy(name) then name else None), store')
  }

  /** `logout`: both keys leave the store and the session returns to anonymous. */
  function Logout(a: AuthState): (r: AuthState)
    ensures r.session == Anonymous
    ensures UserIdKey !in r.store && UserNameKey !in r.store
    ensures forall k :: k != UserIdKey && k != UserNameKey ==> Lookup(r.store, k) == Lookup(a.store, k)
  {
    AuthState(Anonymous, a.store - {UserIdKey, UserNameKey})
  }

  /** Logging out twice is the same as logging out once. */
  lemma LogoutIdempotent(a: AuthState)
    ensures Logout(Logout(a)) == Logout(a)
  {
    assert Logout(Logout(a)).store == Logout(a).store;
  }

  /** A reload right after `login` restores the same id; the name it
      restores is the one given, or, for a nameless login, whatever name an
      earlier login left in the store. A login with an empty id does not
      survive a reload. */
  lemma ReloadAfterLogin(a: AuthState, id: string, name: Option<string>)
    ensures var r := Hydrate(AuthState(Anonymous, Login(a, id, name).store)).session;
      && (id != "" ==> r.isAuthenticated && r.userId == Some(id))
      && (id != "" && Truthy(name) ==> r.userName == name)
      && (id != "" && !Truthy(name) ==> r.userName == Lookup(a.store, UserNameKey))
      && (id == "" ==> r == Anonymous)
  {
  }

  /** A reload after `logout` stays anonymous. */
  lemma ReloadAfterLogout(a: AuthState)
    ensures Hydrate(AuthState(Anonymous, Logout(a).store)).session == Anonymous
  {
  }

  datatype AuthEvent = Mount | LogIn(id: string, name: Option<string>) | LogOut

  function Apply(a: AuthState, e: AuthEvent): AuthState {
    match e
    case Mount => Hydrate(a)
    case LogIn(id, name) => Login(a, id, name)
    case LogOut => Logout(a)
  }

  function Run(a: AuthState, es: seq<AuthEvent>): AuthState
    decreases |es|
  {
    if |es| == 0 then a else Run(Apply(a, es[0]), es[1..])
  }

  /** Starting anonymous over any store, the session stays consistent
      through any sequence of hydrations, logins and logouts. */
  lemma {:induction false} AlwaysConsistent(a: AuthState, es: seq<AuthEvent>)
    requires Consistent(a.session)
    ensures Consistent(Run(a, es).session)
    decreases |es|
  {
    if |es| > 0 {
      AlwaysConsistent(Apply(a, es[0]), es[1..]);
    }
  }
}

=== FILE: cart_page.dfy ===
/** The cart page's own local cart: it starts from two seeded lines and
    offers a quantity field and a delete button per line. Its lines have
    the same shape as the store's, keyed by `id`. */
module CartPage {
  import opened CartStore

  /** The two lines the page is seeded with. */
  const Seed: seq<Line> := [Line(1, "Producto 1", 1000, 2), Line(2, "Producto 2", 500, 1)]

  /** `handleCantidadChange`: the typed quantity is stored on the matching
      line exactly as given; the field's minimum of 1 is only a hint to the
      browser, so zero and negative quantities are kept. */
  function ChangeQuantity(cart: seq<Line>, id: int, q: int): (r: seq<Line>)
    ensures |r| == |cart|
    ensures forall i {:trigger r[i]} :: 0 <= i < |cart| ==>
      if cart[i].articleId == id then r[i] == cart[i].(quantity := q) else r[i] == cart[i]
  {
    UpdateItem(cart, id, q)
  }

  /** `handleEliminar`: drops the lines for `id`, keeping the others in order. */
  function Delete(cart: seq<Line>, id: int): (r: seq<Line>)
    ensures forall l :: l in r <==> l in cart && l.articleId != id
    ensures !Has(cart, id) ==> r == cart
    ensures UniqueIds(cart) && Has(cart, id) ==>
      exists k :: 0 <= k < |cart| && cart[k].articleId == id && r == cart[..k] + cart[k + 1..]
    ensures forall l :: multiset(r)[l] == if l.articleId == id then 0 else multiset(cart)[l]
  {
    RemoveDeletesOneLine(cart, id);
    RemoveItem(cart, id)
  }

  /** Deleting keeps the survivors in their order for any cart, repeated
      ids included: the cart split anywhere is filtered part by part, and a
      single line survives exactly when it has another id. */
  lemma DeleteKeepsOrder(a: seq<Line>, b: seq<Line>, l: Line, id: int)
    ensures Delete(a + b, id) == Delete(a, id) + Delete(b, id)
    ensures Delete([l], id) == if l.articleId == id then [] else [l]
  {
    RemoveItemSplits(a, b, id);
    RemoveItemSingle(l, id);
  }

  /** The seeded page shows a total of 1000 * 2 + 500 * 1 = 2500, and its ids are unique. */
  lemma SeedTotal()
    ensures Total(Seed) == 2500
    ensures UniqueIds(Seed)
  {
    assert Seed[1..][1..] == [];
  }

  /** The page's total follows each edit: a quantity change moves it by
      price times the change, a deletion takes off the line's amount. */
  lemma {:induction false} TotalFollowsEdits(cart: seq<Line>, k: int, q: int)
    requires UniqueIds(cart) && 0 <= k < |cart|
    ensures Total(ChangeQuantity(cart, cart[k].articleId, q)) == Total(cart) + cart[k].price * (q - cart[k].quantity)
    ensures Total(Delete(cart, cart[k].articleId)) == Total(cart) - Amount(cart[k])
  {
    FindUnique(cart, k);
    TotalUpdate(cart, cart[k].articleId, q);
    TotalWithout(cart, cart[k].articleId);
  }

  /** Setting the first seeded line to 0 units keeps the 0 and leaves a total of 500. */
  lemma SeedZeroQuantity()
    ensures ChangeQuantity(Seed, 1, 0)[0].quantity == 0
    ensures Total(ChangeQuantity(Seed, 1, 0)) == 500
  {
    SeedTotal();
    TotalFollowsEdits(Seed, 0, 0);
  }
}

=== FILE: cart_store.dfy ===
/** The shopping-cart store: an ordered list of lines keyed by article id,
    with add-or-merge, remove, set-quantity and clear, a derived total, and
    a snapshot kept in a string store under the key "cart". */
module CartStore {
  import opened Common

  /** One product's entry in the cart. Prices are whole currency units
      (for instance cents); quantities are unbounded integers because the
      store itself never checks them. */
  datatype Line = Line(articleId: int, name: string, price: int, quantity: int)

  /** The amount a line contributes to the total. */
  function Amount(l: Line): int {
    l.price * l.quantity
  }

  /** Sum of price times quantity over the lines, the store's `total`. */
  function Total(c: seq<Line>): (r: int)
    ensures |c| == 1 ==> r == Amount(c[0])
    decreases |c|
  {
    if |c| == 0 then 0 else Amount(c[0]) + Total(c[1..])
  }

  predicate Has(c: seq<Line>, id: int) {
    exists i :: 0 <= i < |c| && c[i].articleId == id
  }

  /** No two lines share an article id. */
  predicate UniqueIds(c: seq<Line>) {
    forall i, j :: 0 <= i < j < |c| ==> c[i].articleId != c[j].articleId
  }

  /** With unique ids, `find` returns the one line carrying the article. */
  lemma {:induction false} FindUnique(c: seq<Line>, k: int)
    requires UniqueIds(c) && 0 <= k < |c|
    ensures Find(c, c[k].articleId) == Some(c[k])
    decreases |c|
  {
    if k > 0 {
      UniqueTail(c);
      assert c[1..][k - 1] == c[k];
      assert c[0].articleId != c[k].articleId;
      FindUnique(c[1..], k - 1);
    }
  }

  /** With unique ids, the tail keeps unique ids and never mentions the head's article. */
  lemma UniqueTail(c: seq<Line>)
    requires UniqueIds(c) && |c| > 0
    ensures UniqueIds(c[1..])
    ensures !Has(c[1..], c[0].articleId)
  {
    forall i | 0 <= i < |c[1..]| ensures c[1..][i].articleId != c[0].articleId {
      assert c[1..][i] == c[i + 1];
    }
  }

  /** An article present in the cart but not at its head is present in the tail. */
  lemma HasTail(c: seq<Line>, id: int)
    requires Has(c, id) && c[0].articleId != id
    ensures Has(c[1..], id)
  {
    var i :| 0 <= i < |c| && c[i].articleId == id;
    assert c[1..][i - 1].articleId == id;
  }

  /** Position `k` holds the first line carrying article `id`. */
  predicate FirstWithId(c: seq<Line>, id: int, k: int) {
    && 0 <= k < |c| && c[k].articleId == id
    && forall j :: 0 <= j < k ==> c[j].articleId != id
  }

  /** The line for `id` that the store's `find` returns. */
  function Find(c: seq<Line>, id: int): (r: Option<Line>)
    ensures r.Some? <==> Has(c, id)
    ensures r.Some? ==> r.value in c && r.value.articleId == id
    decreases |c|
  {
    if |c| == 0 then None
    else if c[0].articleId == id then Some(c[0])
    else
      assert forall i :: 1 <= i < |c| ==> c[i] == c[1..][i - 1];
      Find(c[1..], id)
  }

  /** `find` returns the first line carrying the article: no earlier line
      has that id. */
  lemma {:induction false} FindFirst(c: seq<Line>, id: int)
    ensures Find(c, id).Some? ==> exists k :: FirstWithId(c, id, k) && c[k] == Find(c, id).value
    decreases |c|
  {
    if |c| > 0 {
      if c[0].articleId == id {
        assert FirstWithId(c, id, 0);
      } else {
        FindFirst(c[1..], id);
        var r := Find(c[1..], id);
        if r.Some? {
          var k :| FirstWithId(c[1..], id, k) && c[1..][k] == r.value;
          assert FirstWithId(c, id, k + 1) by {
            forall j | 0 <= j < k + 1 ensures c[j].articleId != id {
              if j > 0 { assert c[j] == c[1..][j - 1]; }
            }
          }
        }
      }
    }
  }

  /** The line `l` with `n` more units. */
  function WithMore(l: Line, n: int): Line {
    l.(quantity := l.quantity + n)
  }

  /** Every line for `item`'s article gets `item`'s quantity added; name and
      price stay those already in the cart. */
  function MergeQuantity(c: seq<Line>, item: Line): (r: seq<Line>)
    ensures |r| == |c|
    ensures forall i {:trigger r[i]} :: 0 <= i < |c| ==>
      r[i].articleId == c[i].articleId && r[i].name == c[i].name && r[i].price == c[i].price &&
      r[i].quantity == (if c[i].articleId == item.articleId then c[i].quantity + item.quantity else c[i].quantity)
    decreases |c|
  {
    if |c| == 0 then []
    else
      var head := if c[0].articleId == item.articleId then c[0].(quantity := c[0].quantity + item.quantity) else c[0];
      [head] + MergeQuantity(c[1..], item)
  }

  /** `addItem`: merge into the existing line for the article, or append. */
  function AddItem(c: seq<Line>, item: Line): (r: seq<Line>)
    ensures Has(c, item.articleId) ==> |r| == |c| && forall i {:trigger r[i]} :: 0 <= i < |c| ==>
      r[i].articleId == c[i].articleId && r[i].name == c[i].name && r[i].price == c[i].price &&
      r[i].quantity == (if c[i].articleId == item.articleId then c[i].quantity + item.quantity else c[i].quantity)
    ensures !Has(c, item.articleId) ==> |r| == |c| + 1 && r[..|c|] == c && r[|c|] == item
    ensures Has(r, item.articleId)
    ensures UniqueIds(c) ==> UniqueIds(r)
  {
    if Find(c, item.articleId).Some? then
      var r := MergeQuantity(c, item);
      var k :| 0 <= k < |c| && c[k].articleId == item.articleId;
      assert r[k].articleId == item.articleId;
      assert UniqueIds(c) ==> UniqueIds(r) by {
        forall i, j | 0 <= i < j < |r| ensures UniqueIds(c) ==> r[i].articleId != r[j].articleId {
          assert r[i].articleId == c[i].articleId && r[j].articleId == c[j].articleId;
        }
      }
      r
    else
      var r := c + [item];
      assert r[|c|] == item;
      assert UniqueIds(c) ==> UniqueIds(r) by {
        forall i, j | 0 <= i < j < |r| ensures UniqueIds(c) ==> r[i].articleId != r[j].articleId {
          assert r[i] == c[i];
          if j < |c| { assert r[j] == c[j]; }
        }
      }
      r
  }

  /** The lines whose article id differs from `id`, in their original order. */
  function Without(c: seq<Line>, id: int): (r: seq<Line>)
    ensures |r| <= |c|
    decreases |c|
  {
    if |c| == 0 then []
    else if c[0].articleId == id then Without(c[1..], id)
    else [c[0]] + Without(c[1..], id)
  }

  lemma {:induction false} WithoutMembers(c: seq<Line>, id: int)
    ensures forall l :: l in Without(c, id) <==> l in c && l.articleId != id
    ensures !Has(c, id) ==> Without(c, id) == c
    decreases |c|
  {
    if |c| > 0 {
      WithoutMembers(c[1..], id);
      assert c == [c[0]] + c[1..];
      if !Has(c, id) {
        assert !Has(c[1..], id) by {
          forall i | 0 <= i < |c[1..]| ensures c[1..][i].articleId != id {
            assert c[1..][i] == c[i + 1];
          }
        }
      }
    }
  }

  lemma {:induction false} WithoutUnique(c: seq<Line>, id: int)
    ensures UniqueIds(c) ==> UniqueIds(Without(c, id))
    decreases |c|
  {
    if |c| > 0 && UniqueIds(c) {
      UniqueTail(c);
      WithoutUnique(c[1..], id);
      WithoutMembers(c[1..], id);
      var rest := Without(c[1..], id);
      if c[0].articleId != id {
        var r := [c[0]] + rest;
        forall i, j | 0 <= i < j < |r| ensures r[i].articleId != r[j].articleId {
          if i == 0 {
            assert r[j] == rest[j - 1];
            assert r[j] in c[1..];
          } else {
            assert r[i] == rest[i - 1] && r[j] == rest[j - 1];
          }
        }
      }
    }
  }

  /** The filter distributes over concatenation: each part keeps its own
      surviving lines, in order. */
  lemma {:induction false} WithoutAppend(a: seq<Line>, b: seq<Line>, id: int)
    ensures Without(a + b, id) == Without(a, id) + Without(b, id)
    decreases |a|
  {
    if |a| == 0 {
      assert a + b == b;
    } else {
      assert (a + b)[0] == a[0];
      assert (a + b)[1..] == a[1..] + b;
      WithoutAppend(a[1..], b, id);
    }
  }

  /** Each surviving line keeps its multiplicity; lines of the article have none. */
  lemma {:induction false} WithoutCounts(c: seq<Line>, id: int)
    ensures forall l :: multiset(Without(c, id))[l] == if l.articleId == id then 0 else multiset(c)[l]
    decreases |c|
  {
    if |c| > 0 {
      WithoutCounts(c[1..], id);
      assert c == [c[0]] + c[1..];
      assert multiset(c) == multiset{c[0]} + multiset(c[1..]);
    }
  }

  /** `removeItem`. */
  function RemoveItem(c: seq<Line>, id: int): (r: seq<Line>)
    ensures !Has(r, id)
    ensures forall l :: l in r <==> l in c && l.articleId != id
    ensures !Has(c, id) ==> r == c
    ensures UniqueIds(c) ==> UniqueIds(r)
    ensures forall l :: multiset(r)[l] == if l.articleId == id then 0 else multiset(c)[l]
  {
    WithoutMembers(c, id);
    WithoutCounts(c, id);
    WithoutUnique(c, id);
    Without(c, id)
  }

  /** Removal keeps the order of the survivors: the cart split anywhere
      is filtered part by part, and a single line survives exactly when it
      belongs to another article. Together these fix the result. */
  lemma RemoveItemSplits(a: seq<Line>, b: seq<Line>, id: int)
    ensures RemoveItem(a + b, id) == RemoveItem(a, id) + RemoveItem(b, id)
  {
    WithoutAppend(a, b, id);
  }

  lemma RemoveItemSingle(l: Line, id: int)
    ensures RemoveItem([l], id) == if l.articleId == id then [] else [l]
  {
    assert [l][1..] == [];
  }

  /** With unique ids, removing a present article deletes exactly its one
      line and keeps every other line in order. */
  lemma RemoveDeletesOneLine(c: seq<Line>, id: int)
    ensures UniqueIds(c) && Has(c, id) ==>
      exists k :: 0 <= k < |c| && c[k].articleId == id && RemoveItem(c, id) == c[..k] + c[k + 1..]
  {
    if UniqueIds(c) && Has(c, id) {
      var k := WithoutDeletesOneLine(c, id);
    }
  }

  lemma {:induction false} WithoutDeletesOneLine(c: seq<Line>, id: int) returns (k: int)
    requires UniqueIds(c) && Has(c, id)
    ensures 0 <= k < |c| && c[k].articleId == id && Without(c, id) == c[..k] + c[k + 1..]
    decreases |c|
  {
    UniqueTail(c);
    if c[0].articleId == id {
      WithoutMembers(c[1..], id);
      k := 0;
    } else {
      HasTail(c, id);
      var t := c[1..];
      var j := WithoutDeletesOneLine(t, id);
      WithoutKeepsHead(c, id, j);
      k := j + 1;
    }
  }

  lemma WithoutKeepsHead(c: seq<Line>, id: int, k: int)
    requires |c| > 0 && c[0].articleId != id
    requires 0 <= k < |c| - 1
    requires Without(c[1..], id) == c[1..][..k] + c[1..][k + 1..]
    ensures Without(c, id) == c[..k + 1] + c[k + 2..]
  {
    var t := c[1..];
    assert c[..k + 1] == [c[0]] + t[..k];
    assert c[k + 2..] == t[k + 1..];
  }

  /** `updateItem`: every line for `id` takes quantity `q`; no lower bound is checked. */
  function UpdateItem(c: seq<Line>, id: int, q: int): (r: seq<Line>)
    ensures |r| == |c|
    ensures forall i {:trigger r[i]} :: 0 <= i < |c| ==>
      r[i].articleId == c[i].articleId && r[i].name == c[i].name && r[i].price == c[i].price &&
      (c[i].articleId == id ==> r[i].quantity == q) && (c[i].articleId != id ==> r[i] == c[i])
    ensures !Has(c, id) ==> r == c
    decreases |c|
  {
    if |c| == 0 then []
    else
      var head := if c[0].articleId == id then c[0].(quantity := q) else c[0];
      [head] + UpdateItem(c[1..], id, q)
  }

  /** `clear`. */
  function Clear(): (r: seq<Line>)
    ensures |r| == 0
  {
    []
  }

  // ---------------------------------------------------------------------
  // Totals

  lemma {:induction false} TotalAppend(a: seq<Line>, b: seq<Line>)
    ensures Total(a + b) == Total(a) + Total(b)
    decreases |a|
  {
    if |a| == 0 {
      assert a + b == b;
    } else {
      assert (a + b)[0] == a[0];
      assert (a + b)[1..] == a[1..] + b;
      TotalAppend(a[1..], b);
    }
  }

  /** With no negative price or quantity, the total is never negative. */
  lemma {:induction false} TotalNonNegative(c: seq<Line>)
    requires forall i :: 0 <= i < |c| ==> c[i].price >= 0 && c[i].quantity >= 0
    ensures Total(c) >= 0
    decreases |c|
  {
    if |c| > 0 {
      assert forall i :: 0 <= i < |c[1..]| ==> c[1..][i] == c[i + 1];
      TotalNonNegative(c[1..]);
    }
  }

  /** Merging into a cart without the article changes nothing. */
  lemma MergeAbsent(c: seq<Line>, item: Line)
    requires !Has(c, item.articleId)
    ensures MergeQuantity(c, item) == c
  {
  }

  lemma {:induction false} TotalMerge(c: seq<Line>, item: Line)
    requires UniqueIds(c) && Has(c, item.articleId)
    ensures Total(MergeQuantity(c, item)) == Total(c) + Find(c, item.articleId).value.price * item.quantity
    decreases |c|
  {
    UniqueTail(c);
    assert MergeQuantity(c, item)[1..] == MergeQuantity(c[1..], item);
    if c[0].articleId == item.articleId {
      MergeAbsent(c[1..], item);
    } else {
      HasTail(c, item.articleId);
      TotalMerge(c[1..], item);
    }
  }

  lemma {:induction false} TotalWithout(c: seq<Line>, id: int)
    requires UniqueIds(c) && Has(c, id)
    ensures Total(Without(c, id)) == Total(c) - Amount(Find(c, id).value)
    decreases |c|
  {
    UniqueTail(c);
    if c[0].articleId == id {
      WithoutMembers(c[1..], id);
    } else {
      HasTail(c, id);
      TotalWithout(c[1..], id);
    }
  }

  /** Updating an article the cart does not hold changes nothing. */
  lemma UpdateAbsent(c: seq<Line>, id: int, q: int)
    requires !Has(c, id)
    ensures UpdateItem(c, id, q) == c
  {
  }

  lemma TotalUpdate(c: seq<Line>, id: int, q: int)
    requires UniqueIds(c) && Has(c, id)
    ensures Total(UpdateItem(c, id, q)) == Total(c) + Find(c, id).value.price * (q - Find(c, id).value.quantity)
  {
    TotalUpdateLine(c, id, q, Find(c, id).value);
  }

  /** Setting the quantity of line `l` changes its amount by price times the change. */
  lemma AmountChange(l: Line, q: int)
    ensures Amount(l.(quantity := q)) == Amount(l) + l.price * (q - l.quantity)
  {
    assert l.price * (q - l.quantity) == l.price * q - l.price * l.quantity;
  }

  lemma {:induction false} TotalUpdateLine(c: seq<Line>, id: int, q: int, l: Line)
    requires UniqueIds(c) && Find(c, id) == Some(l)
    ensures Total(UpdateItem(c, id, q)) == Total(c) + l.price * (q - l.quantity)
    decreases |c|
  {
    UniqueTail(c);
    var u := UpdateItem(c, id, q);
    assert u[1..] == UpdateItem(c[1..], id, q);
    assert Total(u) == Amount(u[0]) + Total(u[1..]);
    if c[0].articleId == id {
      UpdateAbsent(c[1..], id, q);
      assert u[0] == c[0].(quantity := q);
      AmountChange(c[0], q);
    } else {
      assert u[0] == c[0];
      TotalUpdateLine(c[1..], id, q, l);
    }
  }

  // ---------------------------------------------------------------------
  // Operations as events

  datatype CartOp = Add(item: Line) | Remove(id: int) | Update(id: int, quantity: int) | ClearAll

  function Apply(c: seq<Line>, op: CartOp): seq<Line> {
    match op
    case Add(item) => AddItem(c, item)
    case Remove(id) => RemoveItem(c, id)
    case Update(id, q) => UpdateItem(c, id, q)
    case ClearAll => Clear()
  }

  function ApplyAll(c: seq<Line>, ops: seq<CartOp>): seq<Line>
    decreases |ops|
  {
    if |ops| == 0 then c else ApplyAll(Apply(c, ops[0]), ops[1..])
  }

  /** Change to the total an operation makes, computed from the line it
      touches alone rather than by re-summing the cart. */
  function Delta(c: seq<Line>, op: CartOp): int {
    match op
    case Add(item) =>
      (match Find(c, item.articleId)
       case Some(l) => l.price * item.quantity
       case None => Amount(item))
    case Remove(id) =>
      (match Find(c, id)
       case Some(l) => -Amount(l)
       case None => 0)
    case Update(id, q) =>
      (match Find(c, id)
       case Some(l) => l.price * (q - l.quantity)
       case None => 0)
    case ClearAll => -Total(c)
  }

  /** Each operation keeps article ids unique and moves the total by exactly its delta. */
  lemma ApplyStep(c: seq<Line>, op: CartOp)
    requires UniqueIds(c)
    ensures UniqueIds(Apply(c, op))
    ensures Total(Apply(c, op)) == Total(c) + Delta(c, op)
  {
    match op
    case Add(item) => AddStep(c, item);
    case Remove(id) => RemoveStep(c, id);
    case Update(id, q) => UpdateStep(c, id, q);
    case ClearAll =>
  }

  lemma AddStep(c: seq<Line>, item: Line)
    requires UniqueIds(c)
    ensures UniqueIds(AddItem(c, item))
    ensures Total(AddItem(c, item)) == Total(c) + Delta(c, Add(item))
  {
    if Has(c, item.articleId) { TotalMerge(c, item); } else { TotalAppend(c, [item]); }
  }

  lemma RemoveStep(c: seq<Line>, id: int)
    requires UniqueIds(c)
    ensures UniqueIds(RemoveItem(c, id))
    ensures Total(RemoveItem(c, id)) == Total(c) + Delta(c, Remove(id))
  {
    if Has(c, id) { TotalWithout(c, id); }
  }

  lemma UpdateStep(c: seq<Line>, id: int, q: int)
    requires UniqueIds(c)
    ensures UniqueIds(UpdateItem(c, id, q))
    ensures Total(UpdateItem(c, id, q)) == Total(c) + Delta(c, Update(id, q))
  {
    UpdateKeepsIds(c, id, q);
    match Find(c, id) {
      case Some(l) =>
        assert Has(c, id);
        TotalUpdate(c, id, q);
        assert Delta(c, Update(id, q)) == l.price * (q - l.quantity);
      case None =>
        UpdateAbsent(c, id, q);
    }
  }

  /** `updateItem` keeps every line's article id where it was. */
  lemma UpdateKeepsIds(c: seq<Line>, id: int, q: int)
    ensures UniqueIds(c) ==> UniqueIds(UpdateItem(c, id, q))
  {
    var u := UpdateItem(c, id, q);
    forall i, j | 0 <= i < j < |u| ensures UniqueIds(c) ==> u[i].articleId != u[j].articleId {
      assert u[i].articleId == c[i].articleId && u[j].articleId == c[j].articleId;
    }
  }

  /** A running total updated by deltas, as an incremental bookkeeper would keep it. */
  function Ledger(c: seq<Line>, running: int, ops: seq<CartOp>): int
    decreases |ops|
  {
    if |ops| == 0 then running else Ledger(Apply(c, ops[0]), running + Delta(c, ops[0]), ops[1..])
  }

  /** After any sequence of operations the ids are still unique and the
      derived total never drifts from the incrementally kept one. */
  lemma {:induction false} TotalNeverDrifts(c: seq<Line>, ops: seq<CartOp>)
    requires UniqueIds(c)
    ensures UniqueIds(ApplyAll(c, ops))
    ensures Total(ApplyAll(c, ops)) == Ledger(c, Total(c), ops)
    decreases |ops|
  {
    if |ops| > 0 {
      var next := ApplyFirst(c, ops);
      TotalNeverDrifts(next, ops[1..]);
    }
  }

  /** One unfolding of the run and of the ledger, with the first step's facts. */
  lemma ApplyFirst(c: seq<Line>, ops: seq<CartOp>) returns (next: seq<Line>)
    requires UniqueIds(c) && |ops| > 0
    ensures UniqueIds(next)
    ensures ApplyAll(c, ops) == ApplyAll(next, ops[1..])
    ensures Ledger(c, Total(c), ops) == Ledger(next, Total(next), ops[1..])
  {
    next := Apply(c, ops[0]);
    ApplyStep(c, ops[0]);
  }

  lemma AddTwice(c: seq<Line>, first: Line, second: Line)
    requires UniqueIds(c) && !Has(c, first.articleId)
    requires second.articleId == first.articleId
    ensures var r := AddItem(AddItem(c, first), second);
      |r| == |c| + 1 && UniqueIds(r) && r[..|c|] == c &&
      r[|c|] == first.(quantity := first.quantity + second.quantity)
  {
    var id := first.articleId;
    var once := AddItem(c, first);
    assert once[|c|] == first;
    assert Has(once, id) by { assert once[|c|].articleId == id; }
    var r := AddItem(once, second);
    forall i | 0 <= i < |c| ensures r[i] == c[i] {
      assert once[i] == c[i];
      assert c[i].articleId != id;
    }
    assert r[..|c|] == c;
    var m := r[|c|];
    assert m.articleId == id && m.name == first.name && m.price == first.price;
    assert m.quantity == first.quantity + second.quantity;
  }

  /** Looking an article up after `addItem`: its line holds the sum and the
      original name and price; every other article's line is unchanged. */
  lemma {:induction false} FindAfterAdd(c: seq<Line>, item: Line, other: int)
    requires UniqueIds(c)
    requires other != item.articleId
    ensures Find(AddItem(c, item), item.articleId) ==
      match Find(c, item.articleId)
      case Some(l) => Some(WithMore(l, item.quantity))
      case None => Some(item)
    ensures Find(AddItem(c, item), other) == Find(c, other)
  {
    match Find(c, item.articleId) {
      case Some(l) => FindMergedLine(c, item, l);
      case None => FindAppendedLine(c, item);
    }
    FindOtherLine(c, item, other);
  }

  lemma FindMergedLine(c: seq<Line>, item: Line, l: Line)
    requires UniqueIds(c) && Find(c, item.articleId) == Some(l)
    ensures Find(AddItem(c, item), item.articleId) == Some(WithMore(l, item.quantity))
  {
    var r := AddItem(c, item);
    var k :| 0 <= k < |c| && c[k] == l;
    assert r[k] == WithMore(l, item.quantity);
    FindUnique(r, k);
  }

  lemma FindAppendedLine(c: seq<Line>, item: Line)
    requires UniqueIds(c) && Find(c, item.articleId).None?
    ensures Find(AddItem(c, item), item.articleId) == Some(item)
  {
    var r := AddItem(c, item);
    assert r[|c|] == item;
    FindUnique(r, |c|);
  }

  lemma FindOtherLine(c: seq<Line>, item: Line, other: int)
    requires UniqueIds(c)
    requires other != item.articleId
    ensures Find(AddItem(c, item), other) == Find(c, other)
  {
    var r := AddItem(c, item);
    assert UniqueIds(r);
    if Has(c, other) {
      var l := Find(c, other).value;
      var k :| 0 <= k < |c| && c[k] == l;
      assert r[k] == c[k];
      FindUnique(c, k);
      FindUnique(r, k);
    } else {
      assert !Has(r, other) by {
        forall i | 0 <= i < |r| ensures r[i].articleId != other {
          if i < |c| { assert r[i].articleId == c[i].articleId; }
        }
      }
    }
  }

  // ---------------------------------------------------------------------
  // Persistence

  const CartKey := "cart"

  /** Initial cart: the parsed snapshot, or empty when the key is missing,
      holds the empty string, or fails to parse. */
  function Load(store: map<string, string>, parse: string -> Option<seq<Line>>): (r: seq<Line>)
    ensures !Truthy(Lookup(store, CartKey)) ==> r == []
    ensures Truthy(Lookup(store, CartKey)) && parse(store[CartKey]).None? ==> r == []
    ensures Truthy(Lookup(store, CartKey)) && parse(store[CartKey]).Some? ==> r == parse(store[CartKey]).value
  {
    var raw := Lookup(store, CartKey);
    if Truthy(raw) then parse(raw.value).GetOr([]) else []
  }

  /** Writing the snapshot after a change. */
  function Save(store: map<string, string>, c: seq<Line>, serialize: seq<Line> -> string): (r: map<string, string>)
    ensures CartKey in r && r[CartKey] == serialize(c)
    ensures forall k :: k in store && k != CartKey ==> k in r && r[k] == store[k]
    ensures r.Keys == store.Keys + {CartKey}
  {
    store[CartKey := serialize(c)]
  }

  /** The store as the provider holds it: current lines and the string store. */
  datatype Provider = Provider(items: seq<Line>, store: map<string, string>)

  /** A snapshot write that may fail: a failed `setItem` is swallowed and
      the store keeps whatever snapshot it held before. */
  function Persist(store: map<string, string>, c: seq<Line>, serialize: seq<Line> -> string, written: bool): (r: map<string, string>)
    ensures written ==> CartKey in r && r[CartKey] == serialize(c)
    ensures !written ==> r == store
    ensures forall k :: k in store && k != CartKey ==> k in r && r[k] == store[k]
    ensures written ==> r.Keys == store.Keys + {CartKey}
  {
    if written then Save(store, c, serialize) else store
  }

  /** When a write after an operation fails, a reload brings back the lines
      from before the operation rather than the current ones. */
  lemma FailedWriteReloadsStale(p: Provider, op: CartOp, parse: string -> Option<seq<Line>>, serialize: seq<Line> -> string)
    requires forall c :: parse(serialize(c)) == Some(c)
    requires forall c :: serialize(c) != ""
    requires p.store == Save(p.store, p.items, serialize)
    ensures var items := Apply(p.items, op);
      Load(Persist(p.store, items, serialize, false), parse) == p.items &&
      Load(Persist(p.store, items, serialize, true), parse) == items
  {
    var items := Apply(p.items, op);
    assert p.store[CartKey] == serialize(p.items);
    assert parse(serialize(p.items)) == Some(p.items);
    assert parse(serialize(items)) == Some(items);
  }

  /** Mounting the provider: load, then write the loaded lines back. */
  function Mount(store: map<string, string>, parse: string -> Option<seq<Line>>, serialize: seq<Line> -> string): (r: Provider)
    ensures r.items == Load(store, parse)
    ensures CartKey in r.store && r.store[CartKey] == serialize(r.items)
    ensures forall k :: k in store && k != CartKey ==> k in r.store && r.store[k] == store[k]
    ensures r.store.Keys == store.Keys + {CartKey}
  {
    var items := Load(store, parse);
    Provider(items, Save(store, items, serialize))
  }

  /** One operation, followed by the snapshot write the change triggers. */
  function Step(p: Provider, op: CartOp, serialize: seq<Line> -> string): Provider {
    var items := Apply(p.items, op);
    Provider(items, Save(p.store, items, serialize))
  }

  function Run(p: Provider, ops: seq<CartOp>, serialize: seq<Line> -> string): Provider
    decreases |ops|
  {
    if |ops| == 0 then p else Run(Step(p, ops[0], serialize), ops[1..], serialize)
  }

  /** When serialisation round-trips and never yields the empty string,
      the stored snapshot always reloads to the lines in memory, so the cart
      survives a reload after any sequence of operations. */
  lemma {:induction false} ReloadRestores(store: map<string, string>, ops: seq<CartOp>,
                                          parse: string -> Option<seq<Line>>, serialize: seq<Line> -> string)
    requires forall c :: parse(serialize(c)) == Some(c)
    requires forall c :: serialize(c) != ""
    ensures var p := Run(Mount(store, parse, serialize), ops, serialize);
      Load(p.store, parse) == p.items
  {
    ReloadRestoresFrom(Mount(store, parse, serialize), ops, parse, serialize);
  }

  lemma {:induction false} ReloadRestoresFrom(p: Provider, ops: seq<CartOp>,
                                              parse: string -> Option<seq<Line>>, serialize: seq<Line> -> string)
    requires forall c :: parse(serialize(c)) == Some(c)
    requires forall c :: serialize(c) != ""
    requires p.store == Save(p.store, p.items, serialize)
    ensures var q := Run(p, ops, serialize);
      Load(q.store, parse) == q.items && q.store == Save(q.store, q.items, serialize)
    decreases |ops|
  {
    if |ops| == 0 {
      assert p.store[CartKey] == serialize(p.items);
    } else {
      var p' := Step(p, ops[0], serialize);
      ReloadRestoresFrom(p', ops[1..], parse, serialize);
    }
  }

  /** After `clear`, reloading gives the empty cart, whose total is 0. */
  lemma ClearThenReload(p: Provider, parse: string -> Option<seq<Line>>, serialize: seq<Line> -> string)
    requires forall c :: parse(serialize(c)) == Some(c)
    requires forall c :: serialize(c) != ""
    ensures var q := Step(p, ClearAll, serialize);
      Load(q.store, parse) == [] && Total(q.items) == 0
  {
    var q := Step(p, ClearAll, serialize);
    assert parse(serialize([])) == Some([]);
    assert serialize([]) != "";
  }
}

=== FILE: checkout.dfy ===
/** The checkout page's simulated payment: a three-state payment machine,
    a countdown that runs only while payment is pending, the `m:ss`
    rendering of the countdown, and the per-line amounts of the summary. */
module Checkout {
  import opened Common
  import opened Text

  datatype Estado = Pendiente | Procesando | Confirmado

  /** Position of a payment state along pending, processing, confirmed. */
  function Rank(e: Estado): nat {
    match e
    case Pendiente => 0
    case Procesando => 1
    case Confirmado => 2
  }

  datatype Page = Page(estado: Estado, tiempoRestante: int)

  /** Seconds on the countdown when the page opens: five minutes. */
  const Countdown := 300

  const Initial := Page(Pendiente, Countdown)

  /** Discrete events: a one-second timer tick, the "simulate payment"
      button, and the end of the three-second processing delay. */
  datatype Event = Tick | SimulatePayment | PaymentSettled

  /** One event. The button is only on screen while payment is pending, and
      the settling delay only runs after the button moved the state to
      processing, so in any other state those events change nothing. */
  function Step(p: Page, e: Event): (r: Page)
    ensures Rank(p.estado) <= Rank(r.estado) <= Rank(p.estado) + 1
    ensures r.tiempoRestante <= p.tiempoRestante
    ensures p.tiempoRestante >= 0 ==> r.tiempoRestante >= 0
    ensures r.tiempoRestante != p.tiempoRestante ==>
      e == Tick && p.estado == Pendiente && p.tiempoRestante > 0 && r.tiempoRestante == p.tiempoRestante - 1
    ensures r.estado != p.estado ==>
      (p.estado == Pendiente && r.estado == Procesando && e == SimulatePayment) ||
      (p.estado == Procesando && r.estado == Confirmado && e == PaymentSettled)
    ensures e == Tick && p.estado == Pendiente && p.tiempoRestante > 0 ==>
      r == p.(tiempoRestante := p.tiempoRestante - 1)
    ensures e == SimulatePayment && p.estado == Pendiente ==> r == p.(estado := Procesando)
    ensures e == PaymentSettled && p.estado == Procesando ==> r == p.(estado := Confirmado)
  {
    match e
    case Tick =>
      if p.estado == Pendiente && p.tiempoRestante > 0 then p.(tiempoRestante := p.tiempoRestante - 1) else p
    case SimulatePayment =>
      if p.estado == Pendiente then p.(estado := Procesando) else p
    case PaymentSettled =>
      if p.estado == Procesando then p.(estado := Confirmado) else p
  }

  function Run(p: Page, es: seq<Event>): Page
    decreases |es|
  {
    if |es| == 0 then p else Run(Step(p, es[0]), es[1..])
  }

  /** Over any run the payment state never moves backward and the countdown
      never increases and never goes below zero. */
  lemma {:induction false} RunMonotone(p: Page, es: seq<Event>)
    requires p.tiempoRestante >= 0
    ensures Rank(p.estado) <= Rank(Run(p, es).estado)
    ensures 0 <= Run(p, es).tiempoRestante <= p.tiempoRestante
    decreases |es|
  {
    if |es| > 0 {
      RunMonotone(Step(p, es[0]), es[1..]);
    }
  }

  /** From the opening page, the countdown stays within 0..300 forever. */
  lemma CountdownBounded(es: seq<Event>)
    ensures 0 <= Run(Initial, es).tiempoRestante <= Countdown
  {
    RunMonotone(Initial, es);
  }

  /** Pressing the button and letting the delay pass confirms the payment
      from the opening page, with the countdown still at 300. */
  lemma PaymentCompletes()
    ensures Run(Initial, [SimulatePayment, PaymentSettled]) == Page(Confirmado, Countdown)
  {
    assert [SimulatePayment, PaymentSettled][1..] == [PaymentSettled];
  }

  function Ticks(n: nat): (r: seq<Event>)
    ensures |r| == n
    ensures forall i :: 0 <= i < n ==> r[i] == Tick
  {
    seq(n, _ => Tick)
  }

  /** While payment is pending, n ticks take n seconds off a countdown of
      at least n; left alone, the opening countdown runs down to exactly 0. */
  lemma {:induction false} TicksCountDown(p: Page, n: nat)
    requires p.estado == Pendiente && p.tiempoRestante >= n
    ensures Run(p, Ticks(n)) == p.(tiempoRestante := p.tiempoRestante - n)
    decreases n
  {
    if n > 0 {
      assert Ticks(n)[1..] == Ticks(n - 1);
      TicksCountDown(Step(p, Tick), n - 1);
    }
  }

  lemma CountdownExpires()
    ensures Run(Initial, Ticks(Countdown)) == Page(Pendiente, 0)
    ensures Run(Initial, Ticks(Countdown + 1)) == Page(Pendiente, 0)
  {
    TicksCountDown(Initial, Countdown);
    assert Ticks(Countdown + 1) == Ticks(Countdown) + [Tick];
    RunAppend(Initial, Ticks(Countdown), [Tick]);
  }

  lemma {:induction false} RunAppend(p: Page, a: seq<Event>, b: seq<Event>)
    ensures Run(p, a + b) == Run(Run(p, a), b)
    decreases |a|
  {
    if |a| == 0 {
      assert a + b == b;
    } else {
      assert (a + b)[0] == a[0];
      assert (a + b)[1..] == a[1..] + b;
      RunAppend(Step(p, a[0]), a[1..], b);
    }
  }

  /** Once confirmed, every later event leaves the page as it is. */
  lemma {:induction false} ConfirmedIsFinal(p: Page, es: seq<Event>)
    requires p.estado == Confirmado
    ensures Run(p, es) == p
    decreases |es|
  {
    if |es| > 0 {
      ConfirmedIsFinal(Step(p, es[0]), es[1..]);
    }
  }

  /** The script's `%`, whose remainder takes the sign of the dividend. */
  function TruncRem(a: int, b: int): int
    requires b > 0
  {
    if a >= 0 then a % b else -((-a) % b)
  }

  /** `text` is some minutes written without leading zeros, a colon and
      exactly two digits of seconds below 60, which together add up to
      `total` seconds. */
  predicate ReadsAs(text: string, total: int) {
    var k := |text| - 3;
    && k >= 1 && text[k] == ':'
    && (k > 1 ==> text[0] != '0')
    && AllDigits(text[..k]) && AllDigits(text[k + 1..])
    && DigitsValue(text[k + 1..]) < 60
    && DigitsValue(text[..k]) * 60 + DigitsValue(text[k + 1..]) == total
  }

  /** `formatearTiempo`: whole minutes (rounded down), a colon, and the
      remaining seconds padded with zeros to two characters. */
  function FormatTime(segundos: int): (r: string)
    ensures segundos >= 0 ==> ReadsAs(r, segundos)
  {
    if segundos >= 0 then
      SecondsReadBack(segundos);
      Clock(segundos / 60, segundos % 60)
    else
      Clock(segundos / 60, TruncRem(segundos, 60))
  }

  /** Minutes, a colon, and seconds padded with zeros to two characters. */
  function Clock(mins: int, secs: int): string {
    IntToString(mins) + ":" + PadStart(IntToString(secs), 2, '0')
  }

  lemma SecondsReadBack(s: nat)
    ensures ReadsAs(Clock(s / 60, s % 60), s)
  {
    var mins, secs := s / 60, s % 60;
    assert mins * 60 + secs == s;
    FormatTimeReadsBack(mins, secs);
  }

  lemma FormatTimeReadsBack(mins: nat, secs: nat)
    requires secs < 60
    ensures ReadsAs(Clock(mins, secs), mins * 60 + secs)
  {
    PaddedSeconds(secs);
    NatToStringRoundTrip(mins);
    JoinReadsAs(NatToString(mins), PadStart(NatToString(secs), 2, '0'), mins, secs);
  }

  /** Seconds below 60, padded to two characters, are two digits worth the seconds. */
  lemma PaddedSeconds(secs: nat)
    requires secs < 60
    ensures var padded := PadStart(NatToString(secs), 2, '0');
      |padded| == 2 && AllDigits(padded) && DigitsValue(padded) == secs
  {
    var d := NatToString(secs);
    ShortNumber(secs);
    var padded := PadStart(d, 2, '0');
    var z := padded[..|padded| - |d|];
    assert padded == z + d;
    LeadingZerosValue(z, d);
    NatToStringRoundTrip(secs);
  }

  lemma ShortNumber(n: nat)
    requires n < 100
    ensures |NatToString(n)| <= 2
  {
    if n >= 10 {
      assert NatToString(n) == NatToString(n / 10) + [DigitChar(n % 10)];
    }
  }

  /** Minutes, a colon and two digits of seconds read back as their sum. */
  lemma JoinReadsAs(m: string, padded: string, mins: nat, secs: nat)
    requires |m| >= 1 && AllDigits(m) && DigitsValue(m) == mins && (|m| > 1 ==> m[0] != '0')
    requires |padded| == 2 && AllDigits(padded) && DigitsValue(padded) == secs && secs < 60
    ensures ReadsAs(m + ":" + padded, mins * 60 + secs)
  {
    var r := m + ":" + padded;
    assert |r| == |m| + 3;
    var k := |r| - 3;
    assert r[..k] == m;
    assert r[k + 1..] == padded;
  }

  /** A whole number of minutes renders as those minutes and ":00"; the
      opening countdown of 300 seconds therefore reads "5:00". */
  lemma WholeMinutes(m: nat)
    ensures FormatTime(60 * m) == NatToString(m) + ":00"
  {
    FormatTimeIsClock(60 * m);
    assert (60 * m) / 60 == m && (60 * m) % 60 == 0;
    ClockWholeMinutes(m);
  }

  lemma ClockWholeMinutes(m: nat)
    ensures Clock(m, 0) == NatToString(m) + ":00"
  {
    var a := NatToString(m);
    assert IntToString(m) == a;
    PadZero();
    assert a + ":" + "00" == a + ":00";
  }

  lemma PadZero()
    ensures PadStart(IntToString(0), 2, '0') == "00"
  {
    assert IntToString(0) == "0";
  }

  lemma FormatTimeIsClock(s: int)
    requires s >= 0
    ensures FormatTime(s) == Clock(s / 60, s % 60)
  {
  }

  /** One line of the order summary the page receives. */
  datatype OrderItem = OrderItem(nombre: string, cantidad: int, precio: int)

  /** The order data passed to the page, when there is any. */
  datatype Order = Order(nroPedido: int, precioTotal: int, metodoPago: string, provincia: string, items: seq<OrderItem>)

  /** The summary shows, for each item in order, price times quantity. */
  function LineAmounts(items: seq<OrderItem>): (r: seq<int>)
    ensures |r| == |items|
    ensures forall i :: 0 <= i < |items| ==> r[i] == items[i].precio * items[i].cantidad
  {
    seq(|items|, i requires 0 <= i < |items| => items[i].precio * items[i].cantidad)
  }

  datatype Entry = BackToCart | ShowCheckout(order: Order)

  /** Without order data the page sends the user back to the cart. */
  function Enter(datos: Option<Order>): (r: Entry)
    ensures r.BackToCart? <==> datos.None?
    ensures r.ShowCheckout? ==> r.order == datos.value
  {
    match datos
    case None => BackToCart
    case Some(o) => ShowCheckout(o)
  }
}

=== FILE: common.dfy ===
/** Shared vocabulary: optional values and the string truthiness rule of the
    storefront's script language, where the empty string counts as false. */
module Common {

  /** An optional value: `None` stands for the script's `null`/`undefined`. */
  datatype Option<+T> = None | Some(value: T) {

    /** The wrapped value, or `default` when there is none. */
    function GetOr(default: T): T {
      match this
      case Some(v) => v
      case None => default
    }
  }

  /** A possibly-missing string is truthy exactly when it is present and not empty. */
  predicate Truthy(s: Option<string>) {
    s.Some? && s.value != ""
  }

  /** The value of a key in a string store, if any (the store's `getItem`). */
  function Lookup(store: map<string, string>, key: string): (r: Option<string>)
    ensures r.Some? <==> key in store
    ensures r.Some? ==> r.value == store[key]
  {
    if key in store then Some(store[key]) else None
  }
}

=== FILE: gestion_general.dfy ===
/** The general-administration screen: four sections (localities,
    provinces, discounts, payment methods) sharing one modal form. Items and
    forms are loosely typed key-value records. */
module GestionGeneral {
  import opened Common
  import opened Text

  datatype Section = Localidades | Provincias | Descuentos | Metodos

  /** A field value as the records carry it: a number or a text. */
  datatype Value = Num(n: int) | Str(s: string)

  type Record = map<string, Value>

  datatype Provincia = Provincia(cod: int, descripcion: string, costoEnvio: int)

  function SectionName(s: Section): string {
    match s
    case Localidades => "localidades"
    case Provincias => "provincias"
    case Descuentos => "descuentos"
    case Metodos => "metodos"
  }

  /** `getEndpoint`: the resource path of the active section. */
  function Endpoint(s: Section): (r: string)
    ensures r == "/" + SectionName(s)
  {
    match s
    case Localidades => "/localidades"
    case Provincias => "/provincias"
    case Descuentos => "/descuentos"
    case Metodos => "/metodos"
  }

  /** Different sections never share an endpoint. */
  lemma EndpointInjective(a: Section, b: Section)
    requires a != b
    ensures Endpoint(a) != Endpoint(b)
  {
  }

  /** The field that identifies an item of the section. */
  function KeyField(s: Section): string {
    match s
    case Localidades => "id_localidad"
    case Provincias => "cod_provincia"
    case Descuentos => "cod_descuento"
    case Metodos => "id_metodo"
  }

  /** `getItemId`: no id without an item, otherwise the item's key field
      (missing when the record lacks that field). */
  function ItemId(s: Section, item: Option<Record>): (r: Option<Value>)
    ensures item.None? ==> r.None?
    ensures item.Some? && KeyField(s) in item.value ==> r == Some(item.value[KeyField(s)])
    ensures item.Some? && KeyField(s) !in item.value ==> r.None?
  {
    match item
    case None => None
    case Some(rec) => if KeyField(s) in rec then Some(rec[KeyField(s)]) else None
  }

  /** The fields of each section's new-item form. */
  function FormFields(s: Section): set<string> {
    match s
    case Localidades => {"nombre", "codigo_postal", "cod_provincia"}
    case Provincias => {"descripcion", "costo_envio"}
    case Descuentos => {"desc_descuento"}
    case Metodos => {"desc_metodo"}
  }

  /** The province preselected in a new locality: the first province's code,
      or the empty text when there is no province or that code is 0 (a
      falsy number). */
  function DefaultProvincia(provincias: seq<Provincia>): (r: Value)
    ensures |provincias| > 0 && provincias[0].cod != 0 ==> r == Num(provincias[0].cod)
    ensures |provincias| == 0 || provincias[0].cod == 0 ==> r == Str("")
  {
    if |provincias| > 0 && provincias[0].cod != 0 then Num(provincias[0].cod) else Str("")
  }

  /** `getEmptyForm`: every field of the section blank, except a new
      locality's province, which defaults to the first province. */
  function EmptyForm(s: Section, provincias: seq<Provincia>): (r: Record)
    ensures r.Keys == FormFields(s)
    ensures forall k :: k in r && !(s == Localidades && k == "cod_provincia") ==> r[k] == Str("")
    ensures s == Localidades ==> r["cod_provincia"] == DefaultProvincia(provincias)
  {
    match s
    case Localidades =>
      map["nombre" := Str(""), "codigo_postal" := Str(""), "cod_provincia" := DefaultProvincia(provincias)]
    case Provincias => map["descripcion" := Str(""), "costo_envio" := Str("")]
    case Descuentos => map["desc_descuento" := Str("")]
    case Metodos => map["desc_metodo" := Str("")]
  }

  datatype Modal = Modal(show: bool, editing: Option<Record>, form: Record)

  /** `openModal(item?)`: editing copies the item into the form; creating
      clears the edited item and starts from the section's empty form. */
  function OpenModal(s: Section, provincias: seq<Provincia>, item: Option<Record>): (m: Modal)
    ensures m.show && m.editing == item
    ensures item.Some? ==> m.form == item.value
    ensures item.None? ==> m.form == EmptyForm(s, provincias)
  {
    match item
    case Some(rec) => Modal(true, item, rec)
    case None => Modal(true, None, EmptyForm(s, provincias))
  }

  /** `closeModal`: hidden, nothing edited, an empty record as the form. */
  function CloseModal(m: Modal): (r: Modal)
    ensures !r.show && r.editing.None? && |r.form| == 0
  {
    Modal(false, None, map[])
  }

  /** `handleInputChange`: the named field takes the typed text, every other
      field stays as it was. */
  function InputChange(form: Record, name: string, value: string): (r: Record)
    ensures name in r && r[name] == Str(value)
    ensures r.Keys == form.Keys + {name}
    ensures forall k :: k in form && k != name ==> r[k] == form[k]
  {
    form[name := Str(value)]
  }

  /** Position `i` holds the first province with the code. */
  predicate FirstWithCode(provincias: seq<Provincia>, cod: int, i: int) {
    && 0 <= i < |provincias| && provincias[i].cod == cod
    && forall j :: 0 <= j < i ==> provincias[j].cod != cod
  }

  /** The first province with the code, as `find` returns it. */
  function FindProvincia(provincias: seq<Provincia>, cod: int): (r: Option<Provincia>)
    ensures r.None? <==> forall i :: 0 <= i < |provincias| ==> provincias[i].cod != cod
    ensures r.Some? ==> exists i :: FirstWithCode(provincias, cod, i) && provincias[i] == r.value
    decreases |provincias|
  {
    if |provincias| == 0 then None
    else if provincias[0].cod == cod then Some(provincias[0])
    else
      var r := FindProvincia(provincias[1..], cod);
      assert forall i :: 1 <= i < |provincias| ==> provincias[i] == provincias[1..][i - 1];
      if r.Some? then
        var i :| FirstWithCode(provincias[1..], cod, i) && provincias[1..][i] == r.value;
        assert provincias[i + 1] == r.value;
        assert FirstWithCode(provincias, cod, i + 1) by {
          forall j | 0 <= j < i + 1 ensures provincias[j].cod != cod {
            if j > 0 { assert provincias[j] == provincias[1..][j - 1]; }
          }
        }
        r
      else r
  }

  const Unknown := "N/A"

  /** `getProvinciaNombre`: the description of the first province with the
      code, or "N/A" when there is none or its description is empty. */
  function ProvinciaNombre(provincias: seq<Provincia>, cod: int): (r: string)
    ensures (forall i :: 0 <= i < |provincias| ==> provincias[i].cod != cod) ==> r == Unknown
    ensures forall i :: FirstWithCode(provincias, cod, i) ==>
      r == (if provincias[i].descripcion != "" then provincias[i].descripcion else Unknown)
    ensures r != ""
  {
    match FindProvincia(provincias, cod)
    case None => Unknown
    case Some(p) => if p.descripcion != "" then p.descripcion else Unknown
  }

  /** A request path segment for an id, as a template literal prints it:
      a missing id prints as "undefined", a number in decimal, a text as is. */
  function IdText(id: Option<Value>): (r: string)
    ensures id.None? ==> r == "undefined"
    ensures id.Some? && id.value.Num? && id.value.n >= 0 ==> AllDigits(r) && DigitsValue(r) == id.value.n
    ensures id.Some? && id.value.Str? ==> r == id.value.s
  {
    match id
    case None => "undefined"
    case Some(Num(n)) => IntToStringDigits(n); IntToString(n)
    case Some(Str(t)) => t
  }

  datatype Request = Put(path: string, body: Record) | Post(path: string, body: Record)

  /** The numeric field a section's form converts before sending, if any. */
  function NumericField(s: Section): Option<string> {
    match s
    case Provincias => Some("costo_envio")
    case Localidades => Some("cod_provincia")
    case _ => None
  }

  function Field(form: Record, k: string): Option<Value> {
    if k in form then Some(form[k]) else None
  }

  /** The body sent: the form, with a province's shipping cost run through
      the decimal parser and a locality's province code through the integer
      parser; the parsers are parameters. */
  function Body(s: Section, form: Record, parseFloat: Option<Value> -> Value, parseInt: Option<Value> -> Value): (r: Record)
    ensures NumericField(s).None? ==> r == form
    ensures NumericField(s).Some? ==> r.Keys == form.Keys + {NumericField(s).value}
    ensures forall k :: k in form && Some(k) != NumericField(s) ==> r[k] == form[k]
    ensures s == Provincias ==> r["costo_envio"] == parseFloat(Field(form, "costo_envio"))
    ensures s == Localidades ==> r["cod_provincia"] == parseInt(Field(form, "cod_provincia"))
  {
    match s
    case Provincias => form["costo_envio" := parseFloat(Field(form, "costo_envio"))]
    case Localidades => form["cod_provincia" := parseInt(Field(form, "cod_provincia"))]
    case _ => form
  }

  /** `handleSubmit`: an update to the edited item's path when an item is
      being edited, a creation on the section's path otherwise. */
  function Submit(s: Section, m: Modal, parseFloat: Option<Value> -> Value, parseInt: Option<Value> -> Value): (r: Request)
    ensures r.Put? <==> m.editing.Some?
    ensures r.Put? ==> r.path == Endpoint(s) + "/" + IdText(ItemId(s, m.editing))
    ensures r.Post? ==> r.path == Endpoint(s)
    ensures r.body == Body(s, m.form, parseFloat, parseInt)
  {
    var body := Body(s, m.form, parseFloat, parseInt);
    if m.editing.Some? then Put(Endpoint(s) + "/" + IdText(ItemId(s, m.editing)), body)
    else Post(Endpoint(s), body)
  }

  /** Editing a province whose record carries code 7 updates "/provincias/7". */
  lemma EditProvinciaPath(rec: Record, parseFloat: Option<Value> -> Value, parseInt: Option<Value> -> Value)
    requires "cod_provincia" in rec && rec["cod_provincia"] == Num(7)
    ensures Submit(Provincias, OpenModal(Provincias, [], Some(rec)), parseFloat, parseInt).path == "/provincias/7"
  {
    assert IntToString(7) == "7";
  }

  /** Saving an opened item, for every section: an update of that item's
      own path carrying the item's record, numbers re-parsed. */
  lemma SubmitEdited(s: Section, provincias: seq<Provincia>, rec: Record,
                     parseFloat: Option<Value> -> Value, parseInt: Option<Value> -> Value)
    ensures Submit(s, OpenModal(s, provincias, Some(rec)), parseFloat, parseInt) ==
      Put(Endpoint(s) + "/" + IdText(ItemId(s, Some(rec))), Body(s, rec, parseFloat, parseInt))
  {
  }

  /** Saving a new item sends the section's empty form to the section's
      endpoint; only the numeric field goes through its parser. */
  lemma SubmitCreated(s: Section, provincias: seq<Provincia>,
                      parseFloat: Option<Value> -> Value, parseInt: Option<Value> -> Value)
    ensures var r := Submit(s, OpenModal(s, provincias, None), parseFloat, parseInt);
      && r == Post(Endpoint(s), Body(s, EmptyForm(s, provincias), parseFloat, parseInt))
      && r.body.Keys == FormFields(s)
      && (s == Localidades ==> r.body["cod_provincia"] == parseInt(Some(DefaultProvincia(provincias))))
      && (s == Provincias ==> r.body["costo_envio"] == parseFloat(Some(Str(""))))
      && (s == Descuentos ==> r.body == map["desc_descuento" := Str("")])
      && (s == Metodos ==> r.body == map["desc_metodo" := Str("")])
  {
    var form := EmptyForm(s, provincias);
    assert s == Localidades ==> Field(form, "cod_provincia") == Some(DefaultProvincia(provincias));
    assert s == Provincias ==> Field(form, "costo_envio") == Some(Str(""));
  }

  /** A record without the section's key field is updated at ".../undefined". */
  lemma EditWithoutKeyPath(s: Section, rec: Record, parseFloat: Option<Value> -> Value, parseInt: Option<Value> -> Value)
    requires KeyField(s) !in rec
    ensures Submit(s, OpenModal(s, [], Some(rec)), parseFloat, parseInt).path == Endpoint(s) + "/" + "undefined"
  {
    var m := OpenModal(s, [], Some(rec));
    assert m.editing == Some(rec);
    assert ItemId(s, m.editing).None?;
    var r := Submit(s, m, parseFloat, parseInt);
    assert r.Put?;
  }
}

=== FILE: inventory.dfy ===
/** The inventory admin screen's pure helpers: the category check-box
    toggle, the product search-and-category filter, the stock colour tiers
    and stock total, the category label, the product modal's form state,
    and the request a submit builds. */
module Inventory {
  import opened Common
  import opened Text

  datatype Category = Category(id: int, nombre: string, descripcion: string)

  /** A product as listed; `categorias` is missing when the listing did not
      include the product's category links. Prices are whole units. */
  datatype Product = Product(id: int, nombre: string, descripcion: string, stock: int, precio: int,
                             categorias: Option<seq<Category>>)

  // ---------------------------------------------------------------------
  // Category toggle

  predicate NoDuplicates(xs: seq<int>) {
    forall i, j :: 0 <= i < j < |xs| ==> xs[i] != xs[j]
  }

  /** Every occurrence of `x` dropped, the rest kept in order. */
  function Drop(xs: seq<int>, x: int): (r: seq<int>)
    ensures forall y :: y in r <==> y in xs && y != x
    ensures |r| <= |xs|
    ensures x !in xs ==> r == xs
    decreases |xs|
  {
    if |xs| == 0 then []
    else if xs[0] == x then Drop(xs[1..], x)
    else [xs[0]] + Drop(xs[1..], x)
  }

  lemma {:induction false} DropKeepsDistinct(xs: seq<int>, x: int)
    ensures NoDuplicates(xs) ==> NoDuplicates(Drop(xs, x))
    decreases |xs|
  {
    if |xs| > 0 && NoDuplicates(xs) {
      var t := xs[1..];
      assert NoDuplicates(t) by {
        forall i, j | 0 <= i < j < |t| ensures t[i] != t[j] { assert t[i] == xs[i + 1] && t[j] == xs[j + 1]; }
      }
      assert xs[0] !in t by {
        forall i | 0 <= i < |t| ensures t[i] != xs[0] { assert t[i] == xs[i + 1]; }
      }
      DropKeepsDistinct(t, x);
      if xs[0] != x {
        var rest := Drop(t, x);
        var r := [xs[0]] + rest;
        forall i, j | 0 <= i < j < |r| ensures r[i] != r[j] {
          assert r[j] == rest[j - 1];
          if i > 0 { assert r[i] == rest[i - 1]; }
        }
      }
    }
  }

  /** Dropping distributes over concatenation, so the kept ids stay in order. */
  lemma {:induction false} DropAppend(a: seq<int>, b: seq<int>, x: int)
    ensures Drop(a + b, x) == Drop(a, x) + Drop(b, x)
    decreases |a|
  {
    if |a| == 0 {
      assert a + b == b;
    } else {
      assert (a + b)[0] == a[0];
      assert (a + b)[1..] == a[1..] + b;
      DropAppend(a[1..], b, x);
    }
  }

  /** A single id is kept exactly when it differs from the dropped one. */
  lemma DropSingle(y: int, x: int)
    ensures Drop([y], x) == if y == x then [] else [y]
  {
    assert [y][1..] == [];
  }

  /** Every other id keeps its multiplicity; the dropped one has none. */
  lemma {:induction false} DropCounts(xs: seq<int>, x: int)
    ensures forall y :: multiset(Drop(xs, x))[y] == if y == x then 0 else multiset(xs)[y]
    decreases |xs|
  {
    if |xs| > 0 {
      DropCounts(xs[1..], x);
      assert xs == [xs[0]] + xs[1..];
      assert multiset(xs) == multiset{xs[0]} + multiset(xs[1..]);
    }
  }

  /** `handleCategoryToggle`: a selected category is removed (every
      occurrence), an unselected one is appended at the end. */
  function Toggle(selected: seq<int>, c: int): (r: seq<int>)
    ensures c in r <==> c !in selected
    ensures forall x :: x != c ==> (x in r <==> x in selected)
    ensures c !in selected ==> |r| == |selected| + 1 && r[..|selected|] == selected && r[|selected|] == c
    ensures NoDuplicates(selected) ==> NoDuplicates(r)
    ensures c in selected ==> forall x :: multiset(r)[x] == if x == c then 0 else multiset(selected)[x]
  {
    if c in selected then
      DropCounts(selected, c);
      DropKeepsDistinct(selected, c);
      Drop(selected, c)
    else
      var r := selected + [c];
      assert r[|selected|] == c;
      assert NoDuplicates(selected) ==> NoDuplicates(r) by {
        if NoDuplicates(selected) {
          forall i, j | 0 <= i < j < |r| ensures r[i] != r[j] {
            assert r[i] == selected[i];
            if j < |selected| { assert r[j] == selected[j]; }
          }
        }
      }
      r
  }

  /** Unticking keeps the other ids in their order: split anywhere, each
      part loses the category on its own. */
  lemma ToggleOffKeepsOrder(a: seq<int>, b: seq<int>, c: int)
    requires c in a + b
    ensures Toggle(a + b, c) == Drop(a, c) + Drop(b, c)
  {
    DropAppend(a, b, c);
  }

  /** Unticking 2 from [1, 2, 3] leaves [1, 3]. */
  lemma ToggleOffExample()
    ensures Toggle([1, 2, 3], 2) == [1, 3]
  {
    assert [1, 2, 3] == [1] + [2] + [3];
    DropAppend([1] + [2], [3], 2);
    DropAppend([1], [2], 2);
    DropSingle(1, 2);
    DropSingle(2, 2);
    DropSingle(3, 2);
  }

  /** Ticking an unselected category twice restores the selection exactly. */
  lemma ToggleTwiceAbsent(selected: seq<int>, c: int)
    requires c !in selected
    ensures Toggle(Toggle(selected, c), c) == selected
  {
    DropAppended(selected, c);
  }

  lemma {:induction false} DropAppended(xs: seq<int>, c: int)
    requires c !in xs
    ensures Drop(xs + [c], c) == xs
    decreases |xs|
  {
    if |xs| == 0 {
      assert xs + [c] == [c];
    } else {
      assert (xs + [c])[1..] == xs[1..] + [c];
      DropAppended(xs[1..], c);
    }
  }

  /** Unticking a selected category and ticking it again keeps the same set
      of categories, but the category moves to the end of the list. */
  lemma ToggleTwicePresent(selected: seq<int>, c: int)
    requires c in selected
    ensures var r := Toggle(Toggle(selected, c), c);
      r == Drop(selected, c) + [c] && (forall x :: x in r <==> x in selected)
  {
  }

  /** With categories 1 and 2 selected, unticking and reticking 1 reorders the list. */
  lemma ToggleTwiceReorders()
    ensures Toggle(Toggle([1, 2], 1), 1) == [2, 1]
  {
    assert Drop([1, 2], 1) == [2] by {
      assert [1, 2][1..] == [2];
      assert Drop([2], 1) == [2] + Drop([], 1);
    }
  }

  // ---------------------------------------------------------------------
  // Filtering

  datatype CategoryFilter = All | Only(id: int)

  predicate HasCategory(p: Product, id: int) {
    p.categorias.Some? && exists i :: 0 <= i < |p.categorias.value| && p.categorias.value[i].id == id
  }

  /** The name contains the search term, both lower-cased. */
  predicate MatchesSearch(p: Product, term: string) {
    Contains(Lower(p.nombre), Lower(term))
  }

  predicate MatchesCategory(p: Product, f: CategoryFilter) {
    f.All? || HasCategory(p, f.id)
  }

  predicate Shown(p: Product, term: string, f: CategoryFilter) {
    MatchesSearch(p, term) && MatchesCategory(p, f)
  }

  /** `filteredProducts`: the products that match both the search and the
      category filter, in listing order. */
  function FilterProducts(ps: seq<Product>, term: string, f: CategoryFilter): (r: seq<Product>)
    ensures |r| <= |ps|
    ensures forall p :: p in r <==> p in ps && Shown(p, term, f)
    ensures (forall i :: 0 <= i < |ps| ==> Shown(ps[i], term, f)) ==> r == ps
    decreases |ps|
  {
    if |ps| == 0 then []
    else
      var rest := FilterProducts(ps[1..], term, f);
      assert forall i :: 1 <= i < |ps| ==> ps[1..][i - 1] == ps[i];
      if Shown(ps[0], term, f) then [ps[0]] + rest else rest
  }

  /** An empty search with every category selected shows every product. */
  lemma EmptySearchShowsAll(ps: seq<Product>)
    ensures FilterProducts(ps, "", All) == ps
  {
    forall i | 0 <= i < |ps| ensures Shown(ps[i], "", All) {
      assert Lower("") == "";
    }
  }

  /** The filter keeps listing order: filtering a listing split anywhere is
      filtering each part, and a single product is kept exactly when shown. */
  lemma {:induction false} FilterAppend(a: seq<Product>, b: seq<Product>, term: string, f: CategoryFilter)
    ensures FilterProducts(a + b, term, f) == FilterProducts(a, term, f) + FilterProducts(b, term, f)
    decreases |a|
  {
    if |a| == 0 {
      assert a + b == b;
    } else {
      assert (a + b)[0] == a[0];
      assert (a + b)[1..] == a[1..] + b;
      FilterAppend(a[1..], b, term, f);
    }
  }

  lemma FilterSingle(p: Product, term: string, f: CategoryFilter)
    ensures FilterProducts([p], term, f) == if Shown(p, term, f) then [p] else []
  {
    assert [p][1..] == [];
  }

  /** How often one product is shown: as often as it is listed when it
      matches, otherwise never. */
  lemma {:induction false} FilterCount(ps: seq<Product>, term: string, f: CategoryFilter, p: Product)
    ensures multiset(FilterProducts(ps, term, f))[p] == if Shown(p, term, f) then multiset(ps)[p] else 0
    decreases |ps|
  {
    if |ps| > 0 {
      var x, tl := ps[0], ps[1..];
      FilterCount(tl, term, f, p);
      assert ps == [x] + tl;
      FilterAppend([x], tl, term, f);
      FilterSingle(x, term, f);
      var kept := FilterProducts([x], term, f);
      var rest := FilterProducts(tl, term, f);
      assert multiset(ps) == multiset([x]) + multiset(tl);
      assert multiset(kept + rest) == multiset(kept) + multiset(rest);
    }
  }

  /** The filter never invents or duplicates a product: every shown product
      appears as often as in the listing, every other product not at all. */
  lemma FilterIsSublist(ps: seq<Product>, term: string, f: CategoryFilter)
    ensures forall p :: multiset(FilterProducts(ps, term, f))[p] == if Shown(p, term, f) then multiset(ps)[p] else 0
    ensures multiset(FilterProducts(ps, term, f)) <= multiset(ps)
  {
    forall p ensures multiset(FilterProducts(ps, term, f))[p] == if Shown(p, term, f) then multiset(ps)[p] else 0 {
      FilterCount(ps, term, f, p);
    }
  }

  // ---------------------------------------------------------------------
  // Stock

  datatype Tier = Red | Yellow | Green

  /** The colour of a product's stock badge. */
  function StockTier(stock: int): (t: Tier)
    ensures t == Red <==> stock < 10
    ensures t == Yellow <==> 10 <= stock < 30
    ensures t == Green <==> stock >= 30
  {
    if stock < 10 then Red else if stock < 30 then Yellow else Green
  }

  function TierRank(t: Tier): nat {
    match t
    case Red => 0
    case Yellow => 1
    case Green => 2
  }

  /** More stock never shows a worse colour. */
  lemma TierMonotone(a: int, b: int)
    requires a <= b
    ensures TierRank(StockTier(a)) <= TierRank(StockTier(b))
  {
  }

  /** The "Stock Total" figure: the sum of every product's stock. */
  function StockTotal(ps: seq<Product>): (r: int)
    ensures |ps| == 1 ==> r == ps[0].stock
    ensures (forall i :: 0 <= i < |ps| ==> ps[i].stock >= 0) ==> r >= 0
    decreases |ps|
  {
    if |ps| == 0 then 0 else ps[0].stock + StockTotal(ps[1..])
  }

  lemma {:induction false} StockTotalAppend(a: seq<Product>, b: seq<Product>)
    ensures StockTotal(a + b) == StockTotal(a) + StockTotal(b)
    decreases |a|
  {
    if |a| == 0 {
      assert a + b == b;
    } else {
      assert (a + b)[0] == a[0];
      assert (a + b)[1..] == a[1..] + b;
      StockTotalAppend(a[1..], b);
    }
  }

  /** With non-negative stock, the filtered products never hold more stock
      than the total shown above them. */
  lemma {:induction false} FilteredStockBounded(ps: seq<Product>, term: string, f: CategoryFilter)
    requires forall i :: 0 <= i < |ps| ==> ps[i].stock >= 0
    ensures 0 <= StockTotal(FilterProducts(ps, term, f)) <= StockTotal(ps)
    decreases |ps|
  {
    if |ps| > 0 {
      assert forall i :: 0 <= i < |ps[1..]| ==> ps[1..][i] == ps[i + 1];
      FilteredStockBounded(ps[1..], term, f);
      var rest := FilterProducts(ps[1..], term, f);
      if Shown(ps[0], term, f) {
        assert ([ps[0]] + rest)[1..] == rest;
      }
    }
  }

  // ---------------------------------------------------------------------
  // Category label

  function CategoryNames(cs: seq<Category>): (r: seq<string>)
    ensures |r| == |cs|
    ensures forall i :: 0 <= i < |cs| ==> r[i] == cs[i].nombre
  {
    seq(|cs|, i requires 0 <= i < |cs| => cs[i].nombre)
  }

  const NoCategory := "Sin categoría"

  /** `getProductCategories`: the category names joined by ", ", or
      "Sin categoría" when the links are missing or empty. */
  function ProductCategories(p: Product): (r: string)
    ensures p.categorias.None? || |p.categorias.value| == 0 ==> r == NoCategory
    ensures p.categorias.Some? && |p.categorias.value| == 1 ==> r == p.categorias.value[0].nombre
    ensures p.categorias.Some? && |p.categorias.value| > 1 ==>
      r == p.categorias.value[0].nombre + ", " + Join(CategoryNames(p.categorias.value[1..]), ", ")
  {
    if p.categorias.None? || |p.categorias.value| == 0 then NoCategory
    else
      var names := CategoryNames(p.categorias.value);
      assert |names| > 1 ==> names[1..] == CategoryNames(p.categorias.value[1..]);
      Join(names, ", ")
  }

  // ---------------------------------------------------------------------
  // Product modal and submit

  datatype ProductForm = ProductForm(nombre: string, descripcion: string, precio: string, stock: string,
                                     categorias: seq<int>)

  const EmptyForm := ProductForm("", "", "", "", [])

  datatype Modal = Modal(show: bool, editing: Option<Product>, form: ProductForm)

  /** Ids of the categories a product is linked to, empty when the links are missing. */
  function CategoryIds(p: Product): (r: seq<int>)
    ensures p.categorias.None? ==> r == []
    ensures p.categorias.Some? ==>
      (|r| == |p.categorias.value| && forall i :: 0 <= i < |r| ==> r[i] == p.categorias.value[i].id)
  {
    match p.categorias
    case None => []
    case Some(cs) => seq(|cs|, i requires 0 <= i < |cs| => cs[i].id)
  }

  /** `openModal(product?)`: editing a product prefills the form from it,
      with the category ids already ticked; creating starts from the empty form. */
  function OpenModal(product: Option<Product>): (m: Modal)
    ensures m.show && m.editing == product
    ensures product.None? ==> m.form == EmptyForm
    ensures product.Some? ==>
      m.form.nombre == product.value.nombre && m.form.descripcion == product.value.descripcion &&
      m.form.precio == IntToString(product.value.precio) && m.form.stock == IntToString(product.value.stock) &&
      m.form.categorias == CategoryIds(product.value)
  {
    match product
    case None => Modal(true, None, EmptyForm)
    case Some(p) =>
      Modal(true, product, ProductForm(p.nombre, p.descripcion, IntToString(p.precio), IntToString(p.stock), CategoryIds(p)))
  }

  /** `closeModal`: hidden, not editing, form back to empty. */
  function CloseModal(m: Modal): (r: Modal)
    ensures !r.show && r.editing.None? && r.form == EmptyForm
    ensures r.form == OpenModal(None).form
  {
    Modal(false, None, EmptyForm)
  }

  datatype Field = Nombre | Descripcion | Precio | Stock

  /** `handleInputChange` on the product form: only the named text field changes. */
  function SetField(f: ProductForm, field: Field, value: string): (r: ProductForm)
    ensures r.categorias == f.categorias
    ensures r.nombre == (if field == Nombre then value else f.nombre)
    ensures r.descripcion == (if field == Descripcion then value else f.descripcion)
    ensures r.precio == (if field == Precio then value else f.precio)
    ensures r.stock == (if field == Stock then value else f.stock)
  {
    match field
    case Nombre => f.(nombre := value)
    case Descripcion => f.(descripcion := value)
    case Precio => f.(precio := value)
    case Stock => f.(stock := value)
  }

  /** The request body: price and stock parsed from their text fields. */
  datatype Payload = Payload(nombre: string, descripcion: string, precio: int, stock: int, categorias: seq<int>)

  datatype Submission = Rejected(message: string) | Put(path: string, body: Payload) | Post(path: string, body: Payload)

  const NeedsCategory := "Debes seleccionar al menos una categoría"

  /** `handleSubmit`: a form with no category ticked is refused before any
      request is built; otherwise the product is updated when one is being
      edited and created when not. Number parsing is a parameter. */
  function Submit(m: Modal, parsePrice: string -> int, parseStock: string -> int): (r: Submission)
    ensures r.Rejected? <==> |m.form.categorias| == 0
    ensures r.Rejected? ==> r.message == NeedsCategory
    ensures r.Put? <==> |m.form.categorias| > 0 && m.editing.Some?
    ensures r.Put? ==> r.path == "/articulos/" + IntToString(m.editing.value.id)
    ensures r.Post? ==> r.path == "/articulos"
    ensures !r.Rejected? ==>
      r.body.nombre == m.form.nombre && r.body.descripcion == m.form.descripcion &&
      r.body.precio == parsePrice(m.form.precio) && r.body.stock == parseStock(m.form.stock) &&
      r.body.categorias == m.form.categorias
  {
    if |m.form.categorias| == 0 then Rejected(NeedsCategory)
    else
      var body := Payload(m.form.nombre, m.form.descripcion, parsePrice(m.form.precio),
                          parseStock(m.form.stock), m.form.categorias);
      match m.editing
      case Some(p) => Put("/articulos/" + IntToString(p.id), body)
      case None => Post("/articulos", body)
  }

  /** Editing a product with no category links opens a form with nothing
      ticked, which is refused; ticking any one category makes the same
      form an update of that product. */
  lemma EditUncategorisedNeedsTick(p: Product, c: int, parsePrice: string -> int, parseStock: string -> int)
    requires p.categorias.None? || |p.categorias.value| == 0
    ensures Submit(OpenModal(Some(p)), parsePrice, parseStock) == Rejected(NeedsCategory)
    ensures var m := OpenModal(Some(p));
      var ticked := m.(form := m.form.(categorias := Toggle(m.form.categorias, c)));
      var r := Submit(ticked, parsePrice, parseStock);
      r.Put? && r.path == "/articulos/" + IntToString(p.id) && r.body.categorias == [c]
  {
    var m := OpenModal(Some(p));
    assert m.form.categorias == [];
    assert Toggle([], c) == [c];
  }

  /** Creating from the empty form is refused until a category is ticked. */
  lemma CreateNeedsTick(parsePrice: string -> int, parseStock: string -> int)
    ensures Submit(OpenModal(None), parsePrice, parseStock) == Rejected(NeedsCategory)
  {
  }

  /** Saving an untouched edit form sends the product back unchanged, when
      the number parsers read back what the form rendered. */
  lemma UneditedProductPutBack(p: Product, parsePrice: string -> int, parseStock: string -> int)
    requires forall n :: parsePrice(IntToString(n)) == n
    requires forall n :: parseStock(IntToString(n)) == n
    requires p.categorias.Some? && |p.categorias.value| > 0
    ensures Submit(OpenModal(Some(p)), parsePrice, parseStock) ==
      Put("/articulos/" + IntToString(p.id), Payload(p.nombre, p.descripcion, p.precio, p.stock, CategoryIds(p)))
  {
    assert parsePrice(IntToString(p.precio)) == p.precio;
    assert parseStock(IntToString(p.stock)) == p.stock;
  }
}

=== FILE: register.dfy ===
/** The registration form: a password-confirmation check that blocks the
    request, the request body, the success test on the response status, and
    the choice of error message when the request fails. */
module Register {
  import opened Common

  datatype Form = Form(nombre: string, email: string, password: string, confirmPassword: string)

  /** What is sent: the confirmation is not part of it. */
  datatype Body = Body(name: string, email: string, password: string)

  /** How the request ends: a response status, or a thrown error carrying
      the backend's `error` field and the error's own message, each of which
      may be missing. */
  datatype Response = Status(code: int) | Thrown(backendError: Option<string>, message: Option<string>)

  datatype View = View(error: Option<string>, loading: bool, toast: Option<string>)

  /** The view after a submit, the request made if any, and whether the
      delayed redirect to the login page was scheduled. */
  datatype Outcome = Outcome(view: View, sent: Option<Body>, redirectScheduled: bool)

  const Mismatch := "Las contraseñas no coinciden"
  const Fallback := "Error al registrar"
  const Created := "Usuario creado"

  /** The message shown for a failed request: the backend's error when it
      is a non-empty text, else the error's message when non-empty, else a
      fixed fallback. It is never empty. */
  function ErrorMessage(backendError: Option<string>, message: Option<string>): (r: string)
    ensures Truthy(backendError) ==> r == backendError.value
    ensures !Truthy(backendError) && Truthy(message) ==> r == message.value
    ensures !Truthy(backendError) && !Truthy(message) ==> r == Fallback
    ensures r != ""
  {
    if Truthy(backendError) then backendError.value
    else if Truthy(message) then message.value
    else Fallback
  }

  /** `handleSubmit`. The previous error is cleared first; a mismatched
      confirmation sets its message and sends nothing; otherwise the body is
      sent, and a 200 or 201 status shows a toast and schedules the redirect. */
  function Submit(v: View, f: Form, resp: Response): (o: Outcome)
    ensures f.password != f.confirmPassword ==>
      o.sent.None? && o.view == v.(error := Some(Mismatch)) && !o.redirectScheduled
    ensures f.password == f.confirmPassword ==>
      o.sent == Some(Body(f.nombre, f.email, f.password)) && !o.view.loading
    ensures f.password == f.confirmPassword && resp.Status? ==>
      o.view.error.None? &&
      (o.redirectScheduled <==> resp.code == 200 || resp.code == 201) &&
      (o.view.toast == if resp.code == 200 || resp.code == 201 then Some(Created) else v.toast)
    ensures f.password == f.confirmPassword && resp.Thrown? ==>
      o.view.error == Some(ErrorMessage(resp.backendError, resp.message)) && !o.redirectScheduled &&
      o.view.toast == v.toast
  {
    var cleared := v.(error := None);
    if f.password != f.confirmPassword then
      Outcome(cleared.(error := Some(Mismatch)), None, false)
    else
      var body := Body(f.nombre, f.email, f.password);
      match resp
      case Status(code) =>
        if code == 201 || code == 200 then Outcome(cleared.(loading := false, toast := Some(Created)), Some(body), true)
        else Outcome(cleared.(loading := false), Some(body), false)
      case Thrown(backendError, message) =>
        Outcome(cleared.(error := Some(ErrorMessage(backendError, message)), loading := false), Some(body), false)
  }

  /** Correcting the confirmation after a mismatch and submitting again
      clears the mismatch message, and a 201 then schedules the redirect. */
  lemma RetryAfterMismatch(v: View, bad: Form, good: Form, resp: Response)
    requires bad.password != bad.confirmPassword
    requires good.password == good.confirmPassword
    ensures Submit(v, bad, resp).view.error == Some(Mismatch)
    ensures var o := Submit(Submit(v, bad, resp).view, good, Status(201));
      o.view.error.None? && o.redirectScheduled && o.sent == Some(Body(good.nombre, good.email, good.password))
  {
  }

  /** The timer behind the toast: the toast disappears. The navigation to
      the login page that the same timer performs is not modelled. */
  function ToastExpired(v: View): (r: View)
    ensures r.toast.None? && r.error == v.error && r.loading == v.loading
  {
    v.(toast := None)
  }
}

=== FILE: route_guard.dfy ===
/** The route guard: given the roles a route admits, the authentication
    flag and the user's role (which the session may not carry at all), it
    renders the route or redirects. */
module RouteGuard {
  import opened Common

  datatype Role = Admin | Cliente | Public

  datatype Decision = Render | ToLogin | ToHome {
    /** The path a redirect navigates to. */
    function Target(): (r: string)
      requires !Render?
      ensures r == "/login" <==> ToLogin?
      ensures r == "/" <==> ToHome?
    {
      if ToLogin? then "/login" else "/"
    }
  }

  /** The access decision. An empty role list is the default and admits
      any authenticated user. */
  function Decide(allowed: seq<Role>, isAuthenticated: bool, userRole: Option<Role>): (d: Decision)
    ensures d == Render <==>
      Public in allowed || (isAuthenticated && (|allowed| == 0 || userRole.None? || userRole.value in allowed))
    ensures d == ToLogin <==> Public !in allowed && !isAuthenticated
    ensures d == ToHome <==>
      Public !in allowed && isAuthenticated && |allowed| > 0 && userRole.Some? && userRole.value !in allowed
  {
    if Public in allowed then Render
    else if !isAuthenticated then ToLogin
    else if |allowed| > 0 && userRole.Some? && userRole.value !in allowed then ToHome
    else Render
  }

  /** The session never supplies a role, so the guard reads it as missing:
      then no route ever redirects home, and an authenticated user reaches
      even a route reserved for administrators. */
  lemma RoleNeverChecked(allowed: seq<Role>, isAuthenticated: bool)
    ensures Decide(allowed, isAuthenticated, None) != ToHome
    ensures isAuthenticated ==> Decide(allowed, isAuthenticated, None) == Render
    ensures Decide([Admin], true, None) == Render
  {
  }

  /** Widening a non-empty role list never takes access away. */
  lemma MoreRolesAdmitMore(allowed: seq<Role>, extra: Role, isAuthenticated: bool, userRole: Option<Role>)
    requires |allowed| > 0
    requires Decide(allowed, isAuthenticated, userRole) == Render
    ensures Decide(allowed + [extra], isAuthenticated, userRole) == Render
  {
    if Public in allowed { assert Public in allowed + [extra]; }
    else if userRole.Some? && userRole.value in allowed { assert userRole.value in allowed + [extra]; }
  }

  /** An unauthenticated visitor of a non-public route is sent to "/login";
      an authenticated user whose role is not listed is sent to "/". */
  lemma RedirectPaths(allowed: seq<Role>, isAuthenticated: bool, userRole: Option<Role>)
    ensures Public !in allowed && !isAuthenticated ==> Decide(allowed, isAuthenticated, userRole).Target() == "/login"
    ensures Public !in allowed && isAuthenticated && |allowed| > 0 && userRole.Some? && userRole.value !in allowed ==>
      Decide(allowed, isAuthenticated, userRole).Target() == "/"
  {
  }
}

=== FILE: text.dfy ===
/** Text helpers the pages rely on: decimal rendering of numbers (the
    script's `toString`), `padStart`, substring search (`includes`),
    ASCII lower-casing and `join`. */
module Text {

  predicate IsDigit(ch: char) {
    '0' <= ch <= '9'
  }

  predicate AllDigits(s: string) {
    forall i :: 0 <= i < |s| ==> IsDigit(s[i])
  }

  function DigitChar(d: nat): (ch: char)
    requires d < 10
    ensures IsDigit(ch)
    ensures ch as int - '0' as int == d
  {
    ('0' as int + d) as char
  }

  /** Value of a string of decimal digits, read most significant first. */
  function DigitsValue(s: string): nat
    requires AllDigits(s)
  {
    if |s| == 0 then 0
    else DigitsValue(s[..|s| - 1]) * 10 + (s[|s| - 1] as int - '0' as int)
  }

  /** Decimal rendering of a natural number, without leading zeros. */
  function NatToString(n: nat): (r: string)
    ensures |r| >= 1
    ensures AllDigits(r)
    ensures |r| > 1 ==> r[0] != '0'
    decreases n
  {
    if n < 10 then [DigitChar(n)]
    else NatToString(n / 10) + [DigitChar(n % 10)]
  }

  /** Reading back a rendered number gives the number. */
  lemma {:induction false} NatToStringRoundTrip(n: nat)
    ensures DigitsValue(NatToString(n)) == n
    decreases n
  {
    if n >= 10 {
      var s := NatToString(n);
      assert s[..|s| - 1] == NatToString(n / 10);
      NatToStringRoundTrip(n / 10);
    }
  }

  /** A non-negative number prints as digits that read back as it. */
  lemma IntToStringDigits(i: int)
    ensures i >= 0 ==> AllDigits(IntToString(i)) && DigitsValue(IntToString(i)) == i
  {
    if i >= 0 {
      NatToStringRoundTrip(i);
    }
  }

  /** Decimal rendering of an integer, with a leading '-' when negative. */
  function IntToString(i: int): (r: string)
    ensures i >= 0 ==> r == NatToString(i)
    ensures i < 0 ==> |r| >= 2 && r[0] == '-' && r[1..] == NatToString(-i)
  {
    if i < 0 then "-" + NatToString(-i) else NatToString(i)
  }

  /** `s.padStart(width, c)`: prefix copies of `c` until `s` has `width` characters. */
  function PadStart(s: string, width: nat, c: char): (r: string)
    ensures |s| >= width ==> r == s
    ensures |s| < width ==> |r| == width
    ensures |r| >= |s| && r[|r| - |s|..] == s
    ensures forall i :: 0 <= i < |r| - |s| ==> r[i] == c
  {
    var fill := if |s| >= width then 0 else width - |s|;
    seq(fill, _ => c) + s
  }

  /** Leading zeros do not change the value of a digit string. */
  lemma {:induction false} LeadingZerosValue(z: string, s: string)
    requires forall i :: 0 <= i < |z| ==> z[i] == '0'
    requires AllDigits(s)
    ensures AllDigits(z + s)
    ensures DigitsValue(z + s) == DigitsValue(s)
    decreases |s|
  {
    var t := z + s;
    assert AllDigits(t) by {
      forall i | 0 <= i < |t| ensures IsDigit(t[i]) {
        if i < |z| { assert t[i] == z[i]; } else { assert t[i] == s[i - |z|]; }
      }
    }
    if |s| == 0 {
      assert t == z;
      LeadingZerosOnly(z);
    } else {
      var s' := s[..|s| - 1];
      assert t[..|t| - 1] == z + s';
      assert t[|t| - 1] == s[|s| - 1];
      LeadingZerosValue(z, s');
    }
  }

  lemma {:induction false} LeadingZerosOnly(z: string)
    requires forall i :: 0 <= i < |z| ==> z[i] == '0'
    ensures AllDigits(z)
    ensures DigitsValue(z) == 0
    decreases |z|
  {
    if |z| > 0 {
      LeadingZerosOnly(z[..|z| - 1]);
    }
  }

  /** `hay.includes(needle)`: `needle` occurs somewhere in `hay`. */
  predicate Contains(hay: string, needle: string)
    decreases |hay|
  {
    needle <= hay || (|hay| > 0 && Contains(hay[1..], needle))
  }

  /** `needle` occurs in `hay` starting at position `i`. */
  predicate OccursAt(hay: string, needle: string, i: int) {
    0 <= i <= |hay| - |needle| && hay[i..i + |needle|] == needle
  }

  /** `Contains` agrees with the positional definition of an occurrence. */
  lemma {:induction false} ContainsSpec(hay: string, needle: string)
    ensures Contains(hay, needle) <==> exists i :: OccursAt(hay, needle, i)
    decreases |hay|
  {
    if needle <= hay {
      assert OccursAt(hay, needle, 0);
    } else if |hay| > 0 {
      ContainsSpec(hay[1..], needle);
      OccursShift(hay, needle);
    } else {
      assert forall i :: !OccursAt(hay, needle, i);
    }
  }

  /** When `needle` is not a prefix of `hay`, its occurrences in `hay` are
      those in `hay[1..]`, moved one position right. */
  lemma OccursShift(hay: string, needle: string)
    requires |hay| > 0 && !(needle <= hay)
    ensures (exists i :: OccursAt(hay, needle, i)) <==> exists j :: OccursAt(hay[1..], needle, j)
  {
    if exists i :: OccursAt(hay, needle, i) {
      var i :| OccursAt(hay, needle, i);
      assert i != 0;
      assert hay[1..][i - 1..i - 1 + |needle|] == hay[i..i + |needle|];
      assert OccursAt(hay[1..], needle, i - 1);
    }
    if exists j :: OccursAt(hay[1..], needle, j) {
      var j :| OccursAt(hay[1..], needle, j);
      assert hay[1..][j..j + |needle|] == hay[j + 1..j + 1 + |needle|];
      assert OccursAt(hay, needle, j + 1);
    }
  }

  function LowerChar(ch: char): char {
    if 'A' <= ch <= 'Z' then (ch as int + 32) as char else ch
  }

  /** Lower-casing restricted to the ASCII letters. */
  function Lower(s: string): (r: string)
    ensures |r| == |s|
    ensures forall i :: 0 <= i < |s| ==> r[i] == LowerChar(s[i])
  {
    seq(|s|, i requires 0 <= i < |s| => LowerChar(s[i]))
  }

  /** `parts.join(sep)`: the parts with `sep` between neighbours. */
  function Join(parts: seq<string>, sep: string): (r: string)
    ensures |parts| == 0 ==> r == ""
    ensures |parts| > 0 ==> parts[0] <= r
    ensures |parts| > 0 ==> |r| >= |parts[|parts| - 1]| && r[|r| - |parts[|parts| - 1]|..] == parts[|parts| - 1]
    decreases |parts|
  {
    if |parts| == 0 then ""
    else if |parts| == 1 then parts[0]
    else
      var rest := Join(parts[1..], sep);
      assert parts[1..][|parts[1..]| - 1] == parts[|parts| - 1];
      var r := parts[0] + sep + rest;
      assert r[|r| - |rest|..] == rest;
      r
  }

  /** Joining as a left-to-right accumulation: the text so far, then `sep`
      and the next part, for each remaining part. */
  function JoinFrom(acc: string, rest: seq<string>, sep: string): string
    decreases |rest|
  {
    if |rest| == 0 then acc else JoinFrom(acc + sep + rest[0], rest[1..], sep)
  }

  function JoinLeft(parts: seq<string>, sep: string): string {
    if |parts| == 0 then "" else JoinFrom(parts[0], parts[1..], sep)
  }

  lemma {:induction false} JoinFromSplits(acc: string, rest: seq<string>, sep: string)
    ensures JoinFrom(acc, rest, sep) == if |rest| == 0 then acc else acc + sep + Join(rest, sep)
    decreases |rest|
  {
    if |rest| > 0 {
      var next := acc + sep + rest[0];
      var t := rest[1..];
      JoinFromSplits(next, t, sep);
      if |t| > 0 {
        var j := Join(t, sep);
        assert Join(rest, sep) == rest[0] + sep + j;
        Regroup(acc, sep, rest[0], j);
      }
    }
  }

  lemma Regroup(a: string, sep: string, b: string, j: string)
    ensures a + sep + b + sep + j == a + sep + (b + sep + j)
  {
  }

  /** The recursive `join` agrees with the left-to-right accumulation. */
  lemma JoinAgrees(parts: seq<string>, sep: string)
    ensures Join(parts, sep) == JoinLeft(parts, sep)
  {
    if |parts| > 0 {
      JoinFromSplits(parts[0], parts[1..], sep);
    }
  }
}
